=== FILE: README.md ===
# Parser-combinator engine, modelled in Dafny

This project models the core of a JavaScript parser-combinator library. The core is its bundled
engine `dist/regexer.js` and four parser classes under `src/parser/`. Grammars are trees, or
cyclic graphs through lazy references, of parser nodes:

- literal strings;
- the success and failure singletons;
- anchored regular expressions;
- sequences and ordered alternatives;
- bounded repetitions;
- value mappings;
- chained (context-dependent) continuations;
- lookarounds;
- lazy references.

Each node answers `parse(context, position)` with a reply `{status, value, position}`. The
builder (`Regexer`) constructs nodes and expands derived combinators into primitive nodes:
`opt`, `many`, `atLeast`, `atMost`, `sepBy`, `skipSpace`, `assert` and `join`. A printer renders
a grammar as text. It collapses `X | success` into `X?` and prints a node it has already printed
as `<...>`.

The model has these parts:

- **Nodes and grammars** (`nodes.dfy`, `grammars.dfy`). Nodes live in an arena
  (`Grammar.nodes`), and a node id plays the part of object identity. Foreign functions are held
  in an environment `Env`: regular expressions, mapper functions, chain continuations and
  `assert` predicates. `Unwrap` and `Wrap` are the generic child enumeration and rebuild
  operations.
- **Parsing** (`parsing.dfy`). Every node's `parse`, plus `run` and `parse` at the top. A parse
  need not end: grammars can recurse without bound through lazy references and chains, and an
  unbounded repetition of a child that succeeds without consuming input (`success().many()`,
  `optWhitespace.many()` before a non-space) loops forever, because the repetition has no
  progress check. So every call carries fuel. `OutOfFuel` says only that the model gave up, never
  what the source answers; `ParseLaws.ZeroWidthRepeatNeverEnds` shows it is the answer at every
  fuel for the zero-width repetition.
- **Laws** (`laws.dfy`, `invariants.dfy`, `builder_laws.dfy`). Each node's reply is stated from
  its children's replies. Every reply stays within the input, and fuel never changes an answer.
  Each derived combinator is proved to mean what its name promises.
- **Lazy resolution** (`lazy_cells.dfy`). The memoising thunk cell of the lazy parser.
- **Printing** (`printing.dfy`, `print_laws.dfy`). The printer, with round-trip lemmas for the
  pieces it emits (literal quoting, repetition suffixes, lookaround markers).
- **Examples** (`examples.dfy`). Grammars from the repository's tests, evaluated in the model.

Where the code behaves differently from what its names suggest, the model does what the code does:

- The printer's visited set is never cleared during one `toString`. A node that is reachable
  twice prints as `<...>` the second time, not only when it is reached through a cycle.
- `join(separator)` ignores its argument and always joins with `""`.
- `join` uses `Array.prototype.join`: a nested array contributes its elements joined with
  commas, and `null` or `undefined` contribute nothing.
- The optional-shape test is `instanceof SuccessParser`. No comparison with the shared singleton
  is made.
- The optional form `X?` never brackets its operand: the bracket test runs after the operand was
  printed and so always finds it visited. The printer's `AsWritten` rule is this behaviour; the
  bracketing the test evidently meant is the `Intended` rule, described under Findings.

## Model

| member | source | states |
|---|---|---|
| Replies.MakeSuccess | dist/regexer.js:17-23 | a success reply carries status true and the given position and value |
| Replies.MakeFailure | dist/regexer.js:29-35 | a failure reply carries status false, the given position and a null value |
| Nodes.Wrap | dist/regexer.js:79-90 | rebuilding a node keeps its own data and replaces exactly its children; leaves return null |
| Nodes.WrapUnwrap | dist/regexer.js:200-213 | wrapping a node's own children gives the same node back |
| Nodes.Unwrap | dist/regexer.js:79-81 | leaves keep the base `unwrap` and have no children; a sequence or alternative lists exactly its children; every other kind has exactly one child |
| Nodes.ShapeAndChildrenDetermineNode | src/parser/Lookahead.js:38-48 | a node is equal to another exactly when their own data and their children agree |
| Parsing.LiteralParse | src/parser/StringParser.js:27-33 | a literal succeeds exactly when the input at the position starts with its text; success ends after the text with the text as value, failure stays at the start |
| ParseLaws.LiteralRunExact | dist/regexer.js:141-147 | running a literal grammar accepts exactly the literal's own text |
| ParseLaws.EmptyLiteralSucceeds | src/parser/SuccessParser.js:14-16 | the success parser, like the empty literal, succeeds everywhere with `""` and consumes nothing |
| ParseLaws.PatternConsumesMatch | dist/regexer.js:565-570 | a pattern fails at its start when the anchored expression does not match, else consumes exactly the matched text and yields it for group 0 |
| Parsing.PatternParse | dist/regexer.js:565-570 | the pattern succeeds exactly when the anchored `exec` on the rest of the input finds a match; a miss fails at the start with null; a match advances by the length of the matched text, with the whole match as value for group 0 and the exec array (whole match and captures) for a negative group |
| Parsing.SeqLoop | dist/regexer.js:614-626 | a successful sequence yields one value per child, after the values already gathered |
| ParseLaws.SequenceCons | dist/regexer.js:614-626 | a sequence is its first child, whose failure is returned unchanged, followed by the sequence of the rest from the first child's end with values prepended |
| ParseLaws.SequenceEmpty | dist/regexer.js:614-626 | the empty sequence succeeds in place with an empty array |
| Parsing.AltLoop | dist/regexer.js:219-228 | an alternative that fails does so at its own start with no value |
| ParseLaws.AlternativeFirstWins | dist/regexer.js:219-228 | when all earlier children fail, the first child that does not fail decides the alternative's answer verbatim |
| ParseLaws.AlternativeAllFail | dist/regexer.js:219-228 | when every child fails, the alternative fails at its start, whatever positions the children reached |
| Parsing.TimesLoop | dist/regexer.js:692-706 | a repetition's success keeps earlier values and has at least `min` and at most `max` of them; it fails only with fewer than `min` rounds |
| ParseLaws.TimesBounds | dist/regexer.js:692-706 | a repetition with valid bounds succeeds with between `min` and `max` values, and can fail only when `min > 0` |
| ParseLaws.TimesStopsAtFailure | dist/regexer.js:697-701 | a failing round ends the repetition: the values so far at the old position when `min` is reached, else the child's failure |
| ParseLaws.TimesStarts | dist/regexer.js:692-695 | a repetition starts its rounds at its own position with no values |
| ParseLaws.TimesRound | dist/regexer.js:696-704 | below `max`, a successful round appends the child's value and continues from the child's end |
| Builder.TimesOf | dist/regexer.js:665-673 | constructing a repetition throws "Min is greater than max" exactly when a finite `max` is below `min`, and otherwise appends the repetition node |
| ParseLaws.MappingLaw | dist/regexer.js:508-514 | a mapping keeps its child's status and position, passes a failure through, and replaces a success's value with the mapper's result |
| Parsing.ApplyMapper | dist/regexer.js:734-744 | the built-in mappers throw only "value is not iterable"; `first` and `second` throw exactly on a value that is neither an array nor a string; `flatten` yields a non-empty array; `join` and constant and caller mappers never throw, and `join` leaves a non-array unchanged |
| ParseLaws.LazyTransparent | dist/regexer.js:377-380 | a lazy reference parses exactly as the node it resolves to |
| ParseLaws.LookbehindRaises | src/parser/Lookahead.js:54-59 | both lookbehind kinds throw "Lookbehind is not implemented yet" and give no reply |
| ParseLaws.LookaheadLaw | src/parser/Lookahead.js:60-65 | a lookahead succeeds iff the child's status matches its polarity, answers at its start, and carries `""` on success |
| ParseLaws.ChainChildFails | src/parser/ChainedParser.js:44-48 | a chain whose child fails returns that failure and never calls its continuation |
| ParseLaws.ChainContinues | src/parser/ChainedParser.js:49-51 | after the child succeeds, the chain parses the continuation's grammar from the child's end; a missing grammar is a failure there |
| ParseInvariants.ParseIdSane | dist/regexer.js:97-99 | every reply ends at or after its start, stays within the input, and a failure carries null |
| ParseInvariants.ParseNodeSane | dist/regexer.js:97-99 | as above, for every node kind |
| ParseInvariants.SeqLoopSane | dist/regexer.js:614-626 | sequence replies stay within the input and never move backwards |
| ParseInvariants.AltLoopSane | dist/regexer.js:219-228 | alternative replies stay within the input and never move backwards |
| ParseInvariants.TimesLoopSane | dist/regexer.js:692-706 | repetition replies stay within the input and never move backwards |
| ParseInvariants.ParseIdMonotone | dist/regexer.js:97-99 | once a parse finishes with some fuel, more fuel gives the same answer |
| ParseInvariants.ParseNodeMonotone | dist/regexer.js:97-99 | as above, for every node kind |
| ParseInvariants.SeqLoopMonotone | dist/regexer.js:614-626 | as above, for the sequence loop |
| ParseInvariants.AltLoopMonotone | dist/regexer.js:219-228 | as above, for the alternative loop |
| ParseInvariants.TimesLoopMonotone | dist/regexer.js:692-706 | as above, for the repetition loop |
| Parsing.Run | dist/regexer.js:805-808 | `run` succeeds iff the root succeeds and consumed the whole input, and otherwise fails at the root's position |
| Parsing.ParseValue | dist/regexer.js:811-817 | `parse` returns the value of a run that consumed everything, and otherwise throws "Parsing error" |
| Parsing.ParseId | dist/regexer.js:97-99 | whatever node a reference names, its `parse` throws only one of the engine's own errors: an undefined child, lookbehind not implemented, or a built-in mapper's not-iterable error |
| Parsing.ParseNode | dist/regexer.js:441-449 | the same for every node kind; the one explicit `throw` among the `parse` methods is the lookbehind one |
| ParseLaws.ZeroWidthRepeatNeverEnds | dist/regexer.js:697-704 | a repetition without an upper bound whose child succeeds without moving has no answer at any fuel: the loop has no progress check, so it never ends |
| ParseLaws.ManySuccessNeverEnds | dist/regexer.js:896-898 | `success().many()` and `success().atLeast(n)` never finish, on any input, at any fuel |
| LazyCells.Resolve | dist/regexer.js:351-356 | after resolving, the cell caches the target it yields, and the thunk has been called at most once more |
| LazyCells.CachedStaysPut | dist/regexer.js:351-356 | resolving a cached cell leaves it unchanged and yields the cached target |
| LazyCells.ResolveAtMostOnce | dist/regexer.js:351-356 | any number of resolutions calls the thunk exactly once, and all of them yield its first result |
| ParseLaws.ResolvedLazyParses | dist/regexer.js:351-380 | every resolution of a fresh lazy parser (cache at 351-356, parse at 377-380) parses exactly as the lazy node over the thunk's first result |
| LazyCells.WrapLazy | dist/regexer.js:366-371 | `wrap` on a lazy node calls the old thunk once and builds an unresolved cell whose thunk always yields the new child |
| Builder.SuccessOf | dist/regexer.js:839-841 | `success()` returns the shared success node and adds nothing |
| Builder.FailureOf | dist/regexer.js:843-845 | `failure()` returns the shared failure node and adds nothing |
| Builder.StrOf | dist/regexer.js:825-828 | appends exactly one new node, `Literal(value)`, keeps every earlier node, and returns it |
| Builder.Regexp | dist/regexer.js:830-833 | appends exactly `Pattern(rx, group)` and returns it |
| Builder.RegexpGroups | dist/regexer.js:835-837 | appends exactly `Pattern(rx, -1)`, the whole-exec-array form, and returns it |
| Builder.Seq | dist/regexer.js:854-859 | appends exactly `Sequence(items)`; usable whenever every item exists |
| Builder.Alt | dist/regexer.js:865-868 | appends exactly `Alternative(items)`; usable whenever every item exists |
| Builder.Lookahead | dist/regexer.js:874-876 | appends exactly a positive lookahead of `p` |
| Builder.LazyOf | dist/regexer.js:883-885 | appends exactly `Lazy(target)` |
| Builder.TimesExact | dist/regexer.js:891-894 | `times(n)` appends exactly `Times(p, n, n)` |
| Builder.Many | dist/regexer.js:896-898 | appends exactly `Times(p, 0, ∞)` |
| Builder.AtLeast | dist/regexer.js:901-903 | appends exactly `Times(p, n, ∞)` |
| Builder.AtMost | dist/regexer.js:906-908 | appends exactly `Times(p, 0, n)` |
| Builder.Opt | dist/regexer.js:911-914 | appends exactly `Alternative([p, SuccessId])`, reusing the shared success node |
| Builder.MapOf | dist/regexer.js:938-940 | appends exactly `Mapping(p, fn)` |
| Builder.Chain | dist/regexer.js:946-948 | appends exactly `Chained(p, fn)` |
| Builder.Assert | dist/regexer.js:954-959 | appends exactly one chain of `p` whose continuation is the predicate test |
| Builder.Join | dist/regexer.js:961-963 | appends exactly `Mapping(p, Joiner)`: the separator does not reach the grammar |
| Builder.SepBy | dist/regexer.js:920-927 | `sepBy` only appends nodes, five of them, keeps the shared singletons in place, and returns the last |
| Builder.SepByBuilds | dist/regexer.js:920-925 | the five nodes are `seq(sep, p)`, its second-element mapping, that mapping's `many()`, `seq(p, tail)` and its flattening, in that order |
| Builder.SkipSpace | dist/regexer.js:929-931 | `skipSpace` only appends nodes and keeps the shared singletons in place |
| BuilderLaws.SequenceOfTwo | dist/regexer.js:854-858 | `seq(x, y)` runs `y` from `x`'s end and pairs their values; either failure is returned as it is |
| BuilderLaws.OptSemantics | dist/regexer.js:911-914 | `p.opt()` answers as `p` unless `p` fails, in which case it succeeds with `""` at the start |
| BuilderLaws.ManyNeverFails | dist/regexer.js:896-898 | `many()` never fails and always yields an array |
| BuilderLaws.RepetitionCounts | dist/regexer.js:891-908 | `atLeast(n)` yields at least n values, `atMost(n)` at most n, and `times(n)` exactly n |
| BuilderLaws.FlattenedPairLaw | dist/regexer.js:921-925 | a flattened pair with an unbounded tail fails exactly when its head fails; on success it yields the head's value followed by the tail's values and ends where the tail ends |
| BuilderLaws.SeparatedItemLaw | dist/regexer.js:923 | `seq(sep, p)` mapped to its second element fails as `sep` or else as `p` does, and otherwise yields `p`'s value at `p`'s end |
| BuilderLaws.SepBySemantics | dist/regexer.js:920-927 | `p.sepBy(sep)` fails exactly when the first `p` fails, with that failure; on success it yields the first `p`'s value followed by the values of the separated tail, and ends where that tail ends |
| BuilderLaws.SepByIgnoresTrailing | dist/regexer.js:920 | both `allowTrailing` settings build the same grammar |
| BuilderLaws.FirstOfPairLaw | dist/regexer.js:929-931 | a pair mapped to its first element fails exactly as its head does; otherwise it keeps the head's value and ends where the trailing pattern ends, or fails there |
| BuilderLaws.SkipSpaceSemantics | dist/regexer.js:929-931 | `p.skipSpace()` fails exactly as `p` does; otherwise it keeps `p`'s value and ends where the shared `optWhitespace` pattern, run from `p`'s end, ends, or fails there |
| Text.WhitespaceRun | dist/regexer.js:776 | the length of the longest prefix made only of whitespace characters, which is what `optWhitespace` (`\s*`) matches |
| BuilderLaws.SkipSpaceSkipsWhitespace | dist/regexer.js:929-931 | when the shared pattern is `\s*` (`WhitespacePattern`), `p.skipSpace()` never fails once `p` succeeds: it keeps `p`'s value and ends at `p`'s end plus the length of the whitespace run that starts there (`SkipsWhitespace`) |
| BuilderLaws.SkippedRun | dist/regexer.js:776 | the whitespace run `\s*` consumes from a position stays inside the input, covers only whitespace characters, and stops at a non-whitespace character or at the end of the input |
| BuilderLaws.WhitespaceSkipped | dist/regexer.js:776 | when the shared pattern is `\s*`, matching it from any position succeeds and ends after exactly the whitespace run there |
| BuilderLaws.AssertSemantics | dist/regexer.js:954-959 | `p.assert(f)` succeeds with `p`'s value and position exactly when `p` succeeds and `f` holds; otherwise it fails where `p` ended |
| BuilderLaws.JoinSemantics | dist/regexer.js:741-744 | `join()` keeps status and position, leaves non-arrays alone, and turns an array of strings into their concatenation |
| BuilderLaws.JoinIgnoresSeparator | dist/regexer.js:961-963 | every separator passed to `join` builds the same grammar |
| BuilderLaws.LookaheadSemantics | dist/regexer.js:874-876 | `lookahead(p)` succeeds with `""` exactly when `p` succeeds, and consumes nothing |
| Nodes.StrictlyEqualsSuccess | src/parser/SuccessParser.js:24-26 | defines the strict branch of `doEquals` for the success parser; its meaning is stated by `BuilderLaws.EmptyLiteralIsNotSuccess` |
| BuilderLaws.EmptyLiteralIsNotSuccess | src/parser/SuccessParser.js:24-26 | `str("")` parses like the success parser but is not strictly equal to it |
| Printing.Indent | dist/regexer.js:235-236 | indentation is four spaces per level |
| Printing.LiteralText | src/parser/StringParser.js:39-44 | a literal prints bare exactly when it is one non-whitespace character, and otherwise quoted with newlines and quotes escaped |
| Printing.LiteralTextRoundTrip | src/parser/StringParser.js:40-43 | the text inside a quoted literal unescapes back to the literal, for texts without backslashes |
| Printing.TimesSuffix | dist/regexer.js:714-722 | a repetition suffix always ends in one of `?`, `*`, `+`, `}` |
| Printing.SuffixRoundTrip | dist/regexer.js:714-722 | the suffix decodes back to the repetition's bounds |
| Printing.TimesSuffixInjective | dist/regexer.js:714-722 | two repetitions print the same suffix iff their bounds are equal |
| Printing.Marker | src/parser/Lookahead.js:21-26 | every lookaround marker starts with `?` |
| Printing.MarkerInjective | src/parser/Lookahead.js:21-26 | distinct lookaround kinds print distinct markers |
| Printing.MapperText | dist/regexer.js:520-526 | a mapper prints its own source when that is at most 60 characters on one line, and otherwise the elided form; the result is never longer than 60 characters and has no newline |
| Printing.OptionalTextAsWritten | dist/regexer.js:237-243 | the `X?` collapse as the code writes it: the operand's text followed by `?`, bracketed exactly when the operand is neither a string parser nor in the printed set |
| Printing.OptionalText | dist/regexer.js:237-243 | the intended correction of the `X?` collapse (see Findings): it brackets the operand exactly when it is neither a string parser nor printed as `<...>` |
| Printing.Print | dist/regexer.js:101-107 | printing marks the node visited and only grows the visited set; a node already visited prints as `<...>`; with the `AsWritten` rule the optional form is the code's, with `Intended` it is the corrected one |
| Printing.PrintItems | dist/regexer.js:632-640 | printing a list of children yields one text per child and marks every child visited |
| PrintLaws.VisitedItemElided | dist/regexer.js:101-104 | a child already visited before its list is printed shows as `<...>` |
| PrintLaws.RepeatedItemElided | dist/regexer.js:632-640 | a child listed twice shows as `<...>` at its second occurrence |
| PrintLaws.FreshNodeNotElided | dist/regexer.js:101-107 | an unvisited node that is not a lazy reference never prints as `<...>` |
| PrintLaws.OptionalFormAsWritten | dist/regexer.js:237-243 | as the code prints it, an alternative of `X` and the success parser is `X`'s text followed by `?`, never bracketed |
| PrintLaws.OptionalForm | dist/regexer.js:237-243 | the intended correction (see Findings): with the `Intended` rule, an alternative of `X` and the success parser prints `X?` for a string parser, `<...>?` for a visited operand, and `<X>?` otherwise |
| PrintLaws.AsWrittenNeverBrackets | dist/regexer.js:237-243 | as written, the bracket test never fires, because printing the operand has just marked it visited |
| PrintLaws.OptionalBracketsCounterexample | dist/regexer.js:237-243 | for `str("a").atLeast(1).opt()`, the printer with the code's rule gives `a+?` while the intended rule gives `<a+>?` |
| Examples.AlphaBetaParses | tests/simple.spec.js:145-152 | `seq("alpha", "beta")` parses "alphabeta" to both words and rejects "alpha beta", "alphabeta ", "alph" and " alphabeta" |
| Examples.AlphaTwiceParses | tests/simple.spec.js:198-200 | `str("alpha").times(2)` parses exactly two occurrences |
| Examples.OptionalBParses | tests/simple.spec.js:179-184 | `seq(a, b.opt(), c).join()` gives "abc" and "ac" and rejects "acd" |
| Examples.CommaListParses | tests/simple.spec.js:299-305 | with a literal comma as separator, the five nodes `sepBy` appends parse "a,a,a" to three `a`s and "a" to one, and rejects "aba" |
| Examples.SkipSpaceParses | tests/simple.spec.js:292-297 | `seq(str("a").skipSpace(), str("b"))` parses "ab" and "a    b" to `["a", "b"]` and rejects "aba" |
| Examples.SelfReferencePrints | tests/serializing.spec.js:56-67 | a rule that refers to itself prints with `a?` and `<...>` for the recursion |

## Left out

- Regular-expression semantics. The anchored `exec` is a parameter of the environment. The
  properties assumed of it are that a match is a prefix of the searched text (`Anchored`) and,
  where a law says so, that the shared pattern is `\s*` (`WhitespacePattern`).
- The predefined parsers (`number`, `numberNatural`, the whitespace and quoted-string patterns,
  dist/regexer.js:746-788). They are patterns plus `Number()` mappers, and floating-point
  conversion is not modelled. Only `optWhitespace` is kept, as a shared pattern node.
- Mapper, continuation and predicate functions supplied by callers are opaque functions of the
  environment. Their source text, as `Function.prototype.toString` gives it, is an opaque string.
- Exceptions thrown by a caller's function are not modelled. Exceptions from the built-in
  mappers are, as `Raised`.
- Object identity is modelled as node ids. The in-place mutation of reply objects
  (`result.value[i] = …`) is modelled as building new values, which is observably the same
  because no reply is shared.
- The non-strict `equals`, `Parser.js`, `Reply.js` beyond `makeSuccess` and `makeFailure`, and
  the frontier diagnostics and highlighted error rendering of the `src/` version. The files that
  implement them (`src/parser/Parser.js`, `src/Reply.js`, `src/Parsernostrum.js`) are not part
  of this model.
- `src/grammars/JsonGrammar.js` is a user of the library, not part of the engine.
- Builder.TimesOf: counts are natural numbers. Negative or fractional arguments to `times`,
  `atLeast` and `atMost`, which JavaScript would accept, are not modelled.
- Parsing.ParseId: parsing is bounded by fuel. Grammars that recurse forever (left recursion
  through `lazy`), where the source overflows its stack, and unbounded repetitions of a
  zero-width child, where the source loops forever, end as `OutOfFuel`.
- Printing.GrammarText: the builder's `toString(indent, newline)` has no contract of its own.
  It is checked through Examples.SelfReferencePrints.
- Builder.LazyOf: a lazy node stores the node its thunk resolves to. The at-most-once caching of
  the thunk is modelled separately, in LazyCells.
- Parsing.LiteralParse: strings are sequences of Unicode scalar values, so lengths and positions
  count characters, where JavaScript counts UTF-16 code units. Past a character outside the Basic
  Multilingual Plane a position is one less than the source's, and lone surrogates cannot be
  written at all.
- Printing.MapperText: for the same reason, the 60-character limit counts characters, where
  `.length` counts UTF-16 code units; a source with characters outside the Basic Multilingual
  Plane can print in full here where the source elides it.
- Printing.LiteralText: for the same reason, a single character outside the Basic Multilingual
  Plane prints bare, where the source sees a length of 2 and quotes it.
- ParseLaws.PatternConsumesMatch: the anchored expression copies the pattern's flags
  (dist/regexer.js:553). With `m`, `^` also matches after a line break, so a match need not start
  at the position; with `g` or `y`, `exec` depends on `lastIndex`. `Anchored` is
  therefore true only of patterns without those flags, and so PatternConsumesMatch and the
  `...Sane` lemmas of ParseInvariants, which require it, say nothing about grammars with such
  patterns.
- ParseLaws.ChainContinues: a continuation yields one node whose children are already in the
  arena. A continuation that builds a fresh grammar from the value, such as `str(c)` over the
  matched character, is modelled only when those nodes exist beforehand.
- Nodes.Wrap: a single-child node is rebuilt only with at least one child. A zero-argument
  `wrap()` on such a node, which JavaScript accepts and which builds a parser with an `undefined`
  child, is not modelled; no call in the engine makes it.
- Printing.Print: `this.constructor.name` in the base `doToString` is not modelled, because
  every node class overrides it.

## Findings

| source | as written | input that shows it | evidently intended | confidence | as-written member | corrected member |
|---|---|---|---|---|---|---|
| dist/regexer.js:237-243 | The optional collapse prints the operand first and then brackets it only if `!context.visited.has(operand)`. Printing always adds the operand to `visited` (dist/regexer.js:105), so the test is always false and no operand is ever bracketed. | `R.str("a").atLeast(1).opt().toString()` gives `a+?`, which reads as a lazy `+` rather than an optional repetition | bracket a non-literal operand that was not elided, `<a+>?`. This is the form the repository's tests expect for an optional alternative (tests/error.spec.js:464-468, `<ALT<…>>?`), next to `a?` and `<...>?` (tests/serializing.spec.js:56-87) | medium; not executed | Printing.Print with `AsWritten`, Printing.OptionalTextAsWritten, PrintLaws.OptionalFormAsWritten, PrintLaws.OptionalBracketsCounterexample | Printing.Print with `Intended`, Printing.OptionalText, PrintLaws.OptionalForm |

=== FILE: builder.dfy ===
/**
 * The builder's constructors and combinators. Each one appends the nodes it creates to the
 * arena and returns the id of the new root; the derived combinators are expansions into the
 * primitive nodes, exactly as the builder spells them.
 */
module Builder {
  import opened Wrappers
  import opened Values
  import opened Replies
  import opened Nodes
  import opened Grammars

  /** A builder object: the grammar it lives in and its root node. */
  datatype Built = Built(g: Grammar, id: NodeId)

  /** `h` is `g` with nodes appended: existing ids keep their nodes. */
  ghost predicate Extends(g: Grammar, h: Grammar) {
    && |g.nodes| <= |h.nodes|
    && h.nodes[..|g.nodes|] == g.nodes
    && h.env == g.env
  }

  lemma AppendKeepsWellFormed(g: Grammar, n: Node)
    ensures WellFormed(g) && RefsBelow(n, |g.nodes|) && ValidBounds(n) ==> WellFormed(Grammar(g.nodes + [n], g.env))
  {
    if WellFormed(g) && RefsBelow(n, |g.nodes|) && ValidBounds(n) {
      var h := Grammar(g.nodes + [n], g.env);
      forall i | 0 <= i < |h.nodes|
        ensures RefsBelow(h.nodes[i], |h.nodes|) && ValidBounds(h.nodes[i])
      {
        if i < |g.nodes| {
          assert h.nodes[i] == g.nodes[i];
          assert RefsBelow(g.nodes[i], |g.nodes|);
        }
      }
    }
  }

  lemma ExtendsTransitive(a: Grammar, b: Grammar, c: Grammar)
    requires Extends(a, b) && Extends(b, c)
    ensures Extends(a, c)
  {
    assert c.nodes[..|a.nodes|] == c.nodes[..|b.nodes|][..|a.nodes|];
  }

  lemma ExtendsKeepsNode(a: Grammar, b: Grammar, k: NodeId)
    requires Extends(a, b) && k < |a.nodes|
    ensures b.nodes[k] == a.nodes[k]
  {
    assert b.nodes[k] == b.nodes[..|a.nodes|][k];
  }

  lemma ExtendsKeepsCanonical(a: Grammar, b: Grammar)
    requires Extends(a, b) && Canonical(a)
    ensures Canonical(b)
  {
    assert forall i :: 0 <= i < |a.nodes| ==> b.nodes[i] == b.nodes[..|a.nodes|][i];
  }

  /** `r` is `g` with the single node `n` appended as its root. */
  ghost predicate Appends(g: Grammar, r: Built, n: Node) {
    && Extends(g, r.g)
    && |r.g.nodes| == |g.nodes| + 1
    && r.id == |g.nodes|
    && r.g.nodes[r.id] == n
  }

  /** A new node object. */
  function Add(g: Grammar, n: Node): (r: Built)
    ensures Extends(g, r.g) && |r.g.nodes| == |g.nodes| + 1
    ensures r.id == |g.nodes| && r.g.nodes[r.id] == n
    ensures WellFormed(g) && RefsBelow(n, |g.nodes|) && ValidBounds(n) ==> WellFormed(r.g)
    ensures Canonical(g) ==> Canonical(r.g)
  {
    AppendKeepsWellFormed(g, n);
    assert (g.nodes + [n])[..|g.nodes|] == g.nodes;
    Built(Grammar(g.nodes + [n], g.env), |g.nodes|)
  }

  /** A grammar in which `b` may be used as a child: well formed, and its root exists. */
  predicate Usable(b: Built) {
    WellFormed(b.g) && b.id < |b.g.nodes|
  }

  function StrOf(g: Grammar, text: string): (r: Built)
    ensures Appends(g, r, Literal(text))
    ensures WellFormed(g) ==> Usable(r)
  {
    Add(g, Literal(text))
  }

  /** `regexp(value, group)`: the match's selected group becomes the value. */
  function Regexp(g: Grammar, rx: nat, group: nat): (r: Built)
    ensures Appends(g, r, Pattern(rx, group))
    ensures WellFormed(g) ==> Usable(r)
  {
    Add(g, Pattern(rx, group))
  }

  /** `regexpGroups(value)`: the whole match array becomes the value. */
  function RegexpGroups(g: Grammar, rx: nat): (r: Built)
    ensures Appends(g, r, Pattern(rx, -1))
    ensures WellFormed(g) ==> Usable(r)
  {
    Add(g, Pattern(rx, -1))
  }

  /** `success()` and `failure()` reuse the shared instances; nothing is added. */
  function SuccessOf(g: Grammar): (r: Built)
    requires Canonical(g)
    ensures r.g == g && r.id < |g.nodes| && g.nodes[r.id] == Success
  {
    Built(g, SuccessId)
  }

  function FailureOf(g: Grammar): (r: Built)
    requires Canonical(g)
    ensures r.g == g && r.id < |g.nodes| && g.nodes[r.id] == Failure
  {
    Built(g, FailureId)
  }

  predicate ItemsIn(g: Grammar, items: seq<NodeId>) {
    forall k :: 0 <= k < |items| ==> items[k] < |g.nodes|
  }

  function Seq(g: Grammar, items: seq<NodeId>): (r: Built)
    ensures Appends(g, r, Sequence(items))
    ensures WellFormed(g) && ItemsIn(g, items) ==> Usable(r)
  {
    Add(g, Sequence(items))
  }

  function Alt(g: Grammar, items: seq<NodeId>): (r: Built)
    ensures Appends(g, r, Alternative(items))
    ensures WellFormed(g) && ItemsIn(g, items) ==> Usable(r)
  {
    Add(g, Alternative(items))
  }

  function Lookahead(g: Grammar, p: NodeId): (r: Built)
    ensures Appends(g, r, Lookaround(p, PositiveAhead))
    ensures WellFormed(g) && p < |g.nodes| ==> Usable(r)
  {
    Add(g, Lookaround(p, PositiveAhead))
  }

  /** `lazy(thunk)`, with the thunk's (first) result already resolved to `target`. */
  function LazyOf(g: Grammar, target: NodeId): (r: Built)
    ensures Appends(g, r, Lazy(target))
    ensures WellFormed(g) && target < |g.nodes| ==> Usable(r)
  {
    Add(g, Lazy(target))
  }

  /** `times(min, max)`: the repetition constructor throws when `min > max`. */
  function TimesOf(g: Grammar, p: NodeId, min: nat, max: Bound): (r: Result<Built>)
    ensures r.Err? <==> max.Finite? && min > max.n
    ensures r.Err? ==> r.message == MinGreaterThanMaxMessage
    ensures r.Ok? ==> Appends(g, r.value, Times(p, min, max))
    ensures r.Ok? && WellFormed(g) && p < |g.nodes| ==> Usable(r.value)
  {
    if max.Finite? && min > max.n then Err(MinGreaterThanMaxMessage)
    else Ok(Add(g, Times(p, min, max)))
  }

  /** `times(n)`: the upper bound defaults to the lower one. */
  function TimesExact(g: Grammar, p: NodeId, n: nat): (r: Built)
    ensures Appends(g, r, Times(p, n, Finite(n)))
    ensures WellFormed(g) && p < |g.nodes| ==> Usable(r)
  {
    TimesOf(g, p, n, Finite(n)).value
  }

  function Many(g: Grammar, p: NodeId): (r: Built)
    ensures Appends(g, r, Times(p, 0, Infinity))
    ensures WellFormed(g) && p < |g.nodes| ==> Usable(r)
  {
    TimesOf(g, p, 0, Infinity).value
  }

  function AtLeast(g: Grammar, p: NodeId, n: nat): (r: Built)
    ensures Appends(g, r, Times(p, n, Infinity))
    ensures WellFormed(g) && p < |g.nodes| ==> Usable(r)
  {
    TimesOf(g, p, n, Infinity).value
  }

  function AtMost(g: Grammar, p: NodeId, n: nat): (r: Built)
    ensures Appends(g, r, Times(p, 0, Finite(n)))
    ensures WellFormed(g) && p < |g.nodes| ==> Usable(r)
  {
    TimesOf(g, p, 0, Finite(n)).value
  }

  /** `opt()`: this parser or the shared success parser. */
  function Opt(g: Grammar, p: NodeId): (r: Built)
    requires Canonical(g)
    ensures Appends(g, r, Alternative([p, SuccessId]))
    ensures WellFormed(g) && p < |g.nodes| ==> Usable(r)
  {
    Alt(g, [p, SuccessOf(g).id])
  }

  function MapOf(g: Grammar, p: NodeId, m: Mapper): (r: Built)
    ensures Appends(g, r, Mapping(p, m))
    ensures WellFormed(g) && p < |g.nodes| ==> Usable(r)
  {
    Add(g, Mapping(p, m))
  }

  function Chain(g: Grammar, p: NodeId, k: Continuation): (r: Built)
    ensures Appends(g, r, Chained(p, k))
    ensures WellFormed(g) && p < |g.nodes| ==> Usable(r)
  {
    Add(g, Chained(p, k))
  }

  /** `seq(separator, this).map(second).many()`: the separated repetitions of `sepBy`. */
  function SeparatedTail(g: Grammar, p: NodeId, sep: NodeId): (r: Built)
    ensures Extends(g, r.g) && |r.g.nodes| == |g.nodes| + 3 && r.id == |g.nodes| + 2
    ensures var n := |g.nodes|;
      && r.g.nodes[n] == Sequence([sep, p])
      && r.g.nodes[n + 1] == Mapping(n, SecondElement)
      && r.g.nodes[n + 2] == Times(n + 1, 0, Infinity)
    ensures WellFormed(g) && p < |g.nodes| && sep < |g.nodes| ==> Usable(r)
  {
    var second := MappedPair(g, sep, p, SecondElement);
    var r := Many(second.g, second.id);
    ExtendsTransitive(g, second.g, r.g);
    ExtendsKeepsNode(second.g, r.g, |g.nodes|);
    ExtendsKeepsNode(second.g, r.g, second.id);
    r
  }

  /**
   * `sepBy(separator, allowTrailing)`: this parser, then any number of separator-parser pairs
   * keeping the parser's value, flattened into one array. `allowTrailing` is accepted and
   * ignored.
   */
  function SepBy(g: Grammar, p: NodeId, sep: NodeId, allowTrailing: bool): (r: Built)
    requires Canonical(g)
    ensures Extends(g, r.g) && Canonical(r.g)
    ensures |r.g.nodes| == |g.nodes| + 5 && r.id == |g.nodes| + 4
    ensures WellFormed(g) && p < |g.nodes| && sep < |g.nodes| ==> Usable(r)
  {
    var rest := SeparatedTail(g, p, sep);
    var r := MappedPair(rest.g, p, rest.id, Flatten);
    ExtendsTransitive(g, rest.g, r.g);
    ExtendsKeepsCanonical(g, r.g);
    r
  }

  /** `seq(x, y).map(m)`: the pair of `x` and `y`, its value passed through `m`. */
  function MappedPair(g: Grammar, x: NodeId, y: NodeId, m: Mapper): (r: Built)
    ensures Extends(g, r.g) && |r.g.nodes| == |g.nodes| + 2 && r.id == |g.nodes| + 1
    ensures r.g.nodes[|g.nodes|] == Sequence([x, y]) && r.g.nodes[|g.nodes| + 1] == Mapping(|g.nodes|, m)
    ensures WellFormed(g) && x < |g.nodes| && y < |g.nodes| ==> Usable(r)
  {
    var both := Seq(g, [x, y]);
    var r := MapOf(both.g, both.id, m);
    ExtendsTransitive(g, both.g, r.g);
    ExtendsKeepsNode(both.g, r.g, both.id);
    r
  }


  /**
   * The grammar `sepBy` builds, node by node:
   * `seq(this, seq(separator, this).map(second).many()).map(flatten)`.
   */
  lemma SepByBuilds(g: Grammar, p: NodeId, sep: NodeId, allowTrailing: bool)
    requires Canonical(g)
    ensures var r := SepBy(g, p, sep, allowTrailing);
      var n := |g.nodes|;
      && r.id == n + 4
      && r.g.nodes[n] == Sequence([sep, p])
      && r.g.nodes[n + 1] == Mapping(n, SecondElement)
      && r.g.nodes[n + 2] == Times(n + 1, 0, Infinity)
      && r.g.nodes[n + 3] == Sequence([p, n + 2])
      && r.g.nodes[n + 4] == Mapping(n + 3, Flatten)
  {
    var rest := SeparatedTail(g, p, sep);
    var r := MappedPair(rest.g, p, rest.id, Flatten);
    var n := |g.nodes|;
    ExtendsKeepsNode(rest.g, r.g, n);
    ExtendsKeepsNode(rest.g, r.g, n + 1);
    ExtendsKeepsNode(rest.g, r.g, n + 2);
  }

  /** `skipSpace()`: this parser followed by optional whitespace, keeping the parser's value. */
  function SkipSpace(g: Grammar, p: NodeId): (r: Built)
    requires Canonical(g)
    ensures Extends(g, r.g) && Canonical(r.g)
    ensures |r.g.nodes| == |g.nodes| + 2 && r.id == |g.nodes| + 1
    ensures r.g.nodes[|g.nodes|] == Sequence([p, OptWhitespaceId]) && r.g.nodes[r.id] == Mapping(|g.nodes|, FirstElement)
    ensures WellFormed(g) && p < |g.nodes| ==> Usable(r)
  {
    var r := MappedPair(g, p, OptWhitespaceId, FirstElement);
    ExtendsKeepsCanonical(g, r.g);
    r
  }

  /**
   * `assert(fn)`: a chain whose continuation yields `success().map(() => v)` when the
   * predicate holds and `failure()` otherwise.
   */
  function Assert(g: Grammar, p: NodeId, test: nat): (r: Built)
    ensures Appends(g, r, Chained(p, AssertThat(test)))
    ensures WellFormed(g) && p < |g.nodes| ==> Usable(r)
  {
    Chain(g, p, AssertThat(test))
  }

  /** `join(value)`: arrays are joined with the empty string; the argument is ignored. */
  function Join(g: Grammar, p: NodeId, separator: string): (r: Built)
    ensures Appends(g, r, Mapping(p, Joiner))
    ensures WellFormed(g) && p < |g.nodes| ==> Usable(r)
  {
    MapOf(g, p, Joiner)
  }
}

=== FILE: builder_laws.dfy ===
/**
 * What the derived combinators mean, stated against the parse of the parser they were built
 * from: the expansions behave as their names promise, and the arguments the builder ignores
 * make no difference.
 */
module BuilderLaws {
  import opened Wrappers
  import opened Text
  import opened Values
  import opened Replies
  import opened Nodes
  import opened Grammars
  import opened Parsing
  import opened ParseLaws
  import opened Builder

  /** A two-element sequence: the second child runs from the first one's end. */
  lemma SequenceOfTwo(g: Grammar, x: NodeId, y: NodeId, input: string, pos: nat, fuel: nat)
    ensures var a := ParseId(g, x, input, pos, fuel);
      var r := ParseNode(g, Sequence([x, y]), input, pos, fuel + 1);
      if !(a.Done? && a.result.status) then r == a
      else
        var t := ParseId(g, y, input, a.result.position, fuel);
        if !(t.Done? && t.result.status) then r == t
        else r == Done(MakeSuccess(t.result.position, Arr([a.result.value, t.result.value])))
  {
    var items := [x, y];
    var a := ParseId(g, x, input, pos, fuel);
    assert ParseNode(g, Sequence(items), input, pos, fuel + 1) == SeqLoop(g, items, 0, input, pos, [], fuel);
    if a.Done? && a.result.status {
      var t := ParseId(g, y, input, a.result.position, fuel);
      assert [] + [a.result.value] == [a.result.value];
      assert SeqLoop(g, items, 0, input, pos, [], fuel) == SeqLoop(g, items, 1, input, a.result.position, [a.result.value], fuel);
      if t.Done? && t.result.status {
        assert [a.result.value] + [t.result.value] == [a.result.value, t.result.value];
        assert SeqLoop(g, items, 1, input, a.result.position, [a.result.value], fuel)
          == SeqLoop(g, items, 2, input, t.result.position, [a.result.value, t.result.value], fuel);
      }
    }
  }

  /** `p.opt()` succeeds with `p`'s outcome, or with `""` at the start when `p` fails. */
  lemma OptSemantics(g: Grammar, p: NodeId, input: string, pos: nat, fuel: nat)
    requires Canonical(g)
    ensures var b := Opt(g, p);
      var a := ParseId(b.g, p, input, pos, fuel + 1);
      var r := ParseId(b.g, b.id, input, pos, fuel + 2);
      && (a.Done? && !a.result.status ==> r == Done(MakeSuccess(pos, Str(""))))
      && (!(a.Done? && !a.result.status) ==> r == a)
  {
    var b := Opt(g, p);
    ExtendsKeepsCanonical(g, b.g);
    var items := [p, SuccessId];
    var a := ParseId(b.g, p, input, pos, fuel + 1);
    assert ParseId(b.g, b.id, input, pos, fuel + 2) == AltLoop(b.g, items, 0, input, pos, fuel + 1);
    if a.Done? && !a.result.status {
      assert ParseId(b.g, SuccessId, input, pos, fuel + 1) == Done(MakeSuccess(pos, Str("")));
      assert AltLoop(b.g, items, 1, input, pos, fuel + 1) == Done(MakeSuccess(pos, Str("")));
    }
  }

  /** `many()` never fails: it stops at the operand's first failure with what it has. */
  lemma ManyNeverFails(g: Grammar, p: NodeId, input: string, pos: nat, fuel: nat)
    ensures var b := Many(g, p);
      var r := ParseId(b.g, b.id, input, pos, fuel);
      r.Done? ==> r.result.status && r.result.value.Arr?
  {
    var b := Many(g, p);
    assert b.g.nodes[b.id] == Times(p, 0, Infinity);
  }

  /** The bounded repetitions deliver as many values as their bounds allow. */
  lemma RepetitionCounts(g: Grammar, p: NodeId, n: nat, input: string, pos: nat, fuel: nat)
    ensures var b := AtLeast(g, p, n);
      var r := ParseId(b.g, b.id, input, pos, fuel);
      r.Done? && r.result.status ==> r.result.value.Arr? && |r.result.value.items| >= n
    ensures var b := AtMost(g, p, n);
      var r := ParseId(b.g, b.id, input, pos, fuel);
      r.Done? && r.result.status ==> r.result.value.Arr? && |r.result.value.items| <= n
    ensures var b := TimesExact(g, p, n);
      var r := ParseId(b.g, b.id, input, pos, fuel);
      r.Done? && r.result.status ==> r.result.value.Arr? && |r.result.value.items| == n
  {
    var least := AtLeast(g, p, n);
    TimesBounds(least.g, p, n, Infinity, input, pos, fuel);
    var most := AtMost(g, p, n);
    TimesBounds(most.g, p, 0, Finite(n), input, pos, fuel);
    var exact := TimesExact(g, p, n);
    TimesBounds(exact.g, p, n, Finite(n), input, pos, fuel);
  }

  /**
   * A flattened pair whose second part is a repetition without lower bound, as `sepBy` builds:
   * it fails exactly when its head fails, and otherwise its value is the head's value followed
   * by the repetition's values, ending where the repetition ends.
   */
  lemma FlattenedPairLaw(g: Grammar, m: NodeId, s: NodeId, p: NodeId, t: NodeId, input: string, pos: nat, fuel: nat)
    requires m < |g.nodes| && g.nodes[m] == Mapping(s, Flatten)
    requires s < |g.nodes| && g.nodes[s] == Sequence([p, t])
    requires t < |g.nodes| && g.nodes[t].Times? && g.nodes[t].min == 0
    ensures var a := ParseId(g, p, input, pos, fuel);
      var r := ParseId(g, m, input, pos, fuel + 2);
      && (a.Done? && !a.result.status ==> r == a)
      && (a.Done? && a.result.status && r.Done? ==> r.result.status)
      && (r.Done? && r.result.status ==>
            && a.Done? && a.result.status
            && r.result.value.Arr? && |r.result.value.items| >= 1
            && r.result.value.items[0] == a.result.value)
    ensures var a := ParseId(g, p, input, pos, fuel);
      a.Done? && a.result.status ==>
        var tail := ParseId(g, t, input, a.result.position, fuel);
        tail.Done? ==>
          && tail.result.status && tail.result.value.Arr?
          && ParseId(g, m, input, pos, fuel + 2)
             == Done(Reply(true, Arr([a.result.value] + tail.result.value.items), tail.result.position))
  {
    var a := ParseId(g, p, input, pos, fuel);
    SequenceOfTwo(g, p, t, input, pos, fuel);
    var pair := ParseId(g, s, input, pos, fuel + 1);
    assert ParseId(g, m, input, pos, fuel + 2) == MapReply(g.env, Flatten, pair);
    if a.Done? && a.result.status {
      var rest := ParseId(g, t, input, a.result.position, fuel);
      assert rest.Done? ==> rest.result.status && rest.result.value.Arr?;
    }
  }

  /**
   * One separated item, `seq(separator, p).map(second)`: the separator's or `p`'s failure is
   * the answer, otherwise `p`'s value where `p` ended.
   */
  lemma SeparatedItemLaw(g: Grammar, m: NodeId, s: NodeId, sep: NodeId, p: NodeId, input: string, pos: nat, fuel: nat)
    requires m < |g.nodes| && g.nodes[m] == Mapping(s, SecondElement)
    requires s < |g.nodes| && g.nodes[s] == Sequence([sep, p])
    ensures var a := ParseId(g, sep, input, pos, fuel);
      var r := ParseId(g, m, input, pos, fuel + 2);
      if !(a.Done? && a.result.status) then r == a
      else
        var b := ParseId(g, p, input, a.result.position, fuel);
        if !(b.Done? && b.result.status) then r == b
        else r == Done(Reply(true, b.result.value, b.result.position))
  {
    SequenceOfTwo(g, sep, p, input, pos, fuel);
    assert ParseId(g, m, input, pos, fuel + 2) == MapReply(g.env, SecondElement, ParseId(g, s, input, pos, fuel + 1));
  }

  /**
   * `p.sepBy(sep)` fails exactly when its first `p` fails, with that failure; on success its
   * value is the first `p`'s value followed by the values of the separated repetition
   * `seq(sep, p).map(second).many()` run from there, and it ends where that repetition ends.
   */
  lemma SepBySemantics(g: Grammar, p: NodeId, sep: NodeId, allowTrailing: bool, input: string, pos: nat, fuel: nat)
    requires Canonical(g)
    ensures var b := SepBy(g, p, sep, allowTrailing);
      var a := ParseId(b.g, p, input, pos, fuel);
      var r := ParseId(b.g, b.id, input, pos, fuel + 2);
      && (a.Done? && !a.result.status ==> r == a)
      && (a.Done? && a.result.status && r.Done? ==> r.result.status)
      && (r.Done? && r.result.status ==>
            && a.Done? && a.result.status
            && r.result.value.Arr? && |r.result.value.items| >= 1
            && r.result.value.items[0] == a.result.value)
    ensures var b := SepBy(g, p, sep, allowTrailing);
      var a := ParseId(b.g, p, input, pos, fuel);
      a.Done? && a.result.status ==>
        var tail := ParseId(b.g, |g.nodes| + 2, input, a.result.position, fuel);
        tail.Done? ==>
          && tail.result.status && tail.result.value.Arr?
          && ParseId(b.g, b.id, input, pos, fuel + 2)
             == Done(Reply(true, Arr([a.result.value] + tail.result.value.items), tail.result.position))
  {
    var b := SepBy(g, p, sep, allowTrailing);
    SepByBuilds(g, p, sep, allowTrailing);
    var n := |g.nodes|;
    FlattenedPairLaw(b.g, b.id, n + 3, p, n + 2, input, pos, fuel);
  }

  /**
   * `r` is what a head `a` followed by pattern `rx`, keeping the head's value, gives: a failed
   * head's own reply, otherwise the head's value at the pattern's end, or the pattern's failure.
   */
  ghost predicate ThenPattern(env: Env, rx: nat, input: string, a: Attempt<Reply>, r: Attempt<Reply>) {
    && (!(a.Done? && a.result.status) ==> r == a)
    && (a.Done? && a.result.status ==>
          var t := PatternParse(env, rx, 0, input, a.result.position);
          r == if t.status then Done(Reply(true, a.result.value, t.position)) else Done(t))
  }

  /** A pair mapped to its first element, whose second part is a pattern, as `skipSpace` builds. */
  lemma FirstOfPairLaw(g: Grammar, m: NodeId, s: NodeId, p: NodeId, w: NodeId, rx: nat, input: string, pos: nat, fuel: nat)
    requires m < |g.nodes| && g.nodes[m] == Mapping(s, FirstElement)
    requires s < |g.nodes| && g.nodes[s] == Sequence([p, w])
    requires w < |g.nodes| && g.nodes[w] == Pattern(rx, 0)
    ensures ThenPattern(g.env, rx, input, ParseId(g, p, input, pos, fuel), ParseId(g, m, input, pos, fuel + 2))
  {
    var a := ParseId(g, p, input, pos, fuel);
    SequenceOfTwo(g, p, w, input, pos, fuel);
    var pair := ParseId(g, s, input, pos, fuel + 1);
    assert ParseId(g, m, input, pos, fuel + 2) == MapReply(g.env, FirstElement, pair);
    if a.Done? && a.result.status {
      var t := PatternParse(g.env, rx, 0, input, a.result.position);
      assert ParseId(g, w, input, a.result.position, fuel) == Done(t);
    }
  }

  /** `p.skipSpace()` keeps `p`'s value and ends after the whitespace that follows it. */
  lemma SkipSpaceSemantics(g: Grammar, p: NodeId, input: string, pos: nat, fuel: nat)
    requires Canonical(g)
    ensures ThenPattern(g.env, OptWhitespaceRegex, input, ParseId(SkipSpace(g, p).g, p, input, pos, fuel + 1),
      ParseId(SkipSpace(g, p).g, SkipSpace(g, p).id, input, pos, fuel + 3))
  {
    SkipSpaceShapeLaw(g, p, SkipSpace(g, p), input, pos, fuel);
  }

  /** `SkipSpaceSemantics` for any result with the shape `SkipSpace` builds. */
  lemma SkipSpaceShapeLaw(g: Grammar, p: NodeId, b: Built, input: string, pos: nat, fuel: nat)
    requires Canonical(b.g) && b.g.env == g.env
    requires |b.g.nodes| == |g.nodes| + 2 && b.id == |g.nodes| + 1
    requires b.g.nodes[|g.nodes|] == Sequence([p, OptWhitespaceId]) && b.g.nodes[b.id] == Mapping(|g.nodes|, FirstElement)
    ensures ThenPattern(g.env, OptWhitespaceRegex, input, ParseId(b.g, p, input, pos, fuel + 1),
      ParseId(b.g, b.id, input, pos, fuel + 3))
  {
    FirstOfPairLaw(b.g, b.id, |g.nodes|, p, OptWhitespaceId, OptWhitespaceRegex, input, pos, fuel + 1);
  }

  /**
   * With the shared pattern being `\s*`, `p.skipSpace()` cannot fail once `p` succeeds: it keeps
   * `p`'s value and ends after the run of whitespace that follows `p` (see `SkippedRun`).
   */
  lemma SkipSpaceSkipsWhitespace(g: Grammar, p: NodeId, input: string, pos: nat, fuel: nat)
    requires Canonical(g) && WhitespacePattern(g.env)
    ensures SkipsWhitespace(input, ParseId(SkipSpace(g, p).g, p, input, pos, fuel + 1),
      ParseId(SkipSpace(g, p).g, SkipSpace(g, p).id, input, pos, fuel + 3))
  {
    var b := SkipSpace(g, p);
    SkipSpaceSemantics(g, p, input, pos, fuel);
    WhitespaceKeepsValue(g.env, input, ParseId(b.g, p, input, pos, fuel + 1), ParseId(b.g, b.id, input, pos, fuel + 3));
  }

  /** `r` keeps the value of a successful `a` and ends after the whitespace run at `a`'s end. */
  ghost predicate SkipsWhitespace(input: string, a: Attempt<Reply>, r: Attempt<Reply>) {
    a.Done? && a.result.status ==>
      var e := a.result.position;
      r == Done(Reply(true, a.result.value, e + WhitespaceRun(Substring(input, e, |input|))))
  }

  /** A reply built from the whitespace pattern's result after `a`, as `skipSpace` builds it, is a
      success past the run. */
  lemma WhitespaceKeepsValue(env: Env, input: string, a: Attempt<Reply>, r: Attempt<Reply>)
    requires WhitespacePattern(env)
    requires ThenPattern(env, OptWhitespaceRegex, input, a, r)
    ensures SkipsWhitespace(input, a, r)
  {
    if a.Done? && a.result.status {
      WhitespaceSkipped(env, input, a.result.position);
    }
  }

  /** The shared pattern, when it is `\s*`, succeeds from any position, past the whitespace there. */
  lemma WhitespaceSkipped(env: Env, input: string, e: nat)
    requires WhitespacePattern(env)
    ensures var w := PatternParse(env, OptWhitespaceRegex, 0, input, e);
      w.status && w.position == e + WhitespaceRun(Substring(input, e, |input|))
  {
    var rest := Substring(input, e, |input|);
    assert env.regexExec(OptWhitespaceRegex)(rest) == WhitespaceExec(rest);
  }

  /** The run skipped from `e` lies within the input, is all whitespace, and stops at the first other character. */
  lemma SkippedRun(input: string, e: nat)
    requires e <= |input|
    ensures var end := e + WhitespaceRun(Substring(input, e, |input|));
      && end <= |input|
      && (forall i :: e <= i < end ==> IsJsWhitespace(input[i]))
      && (end < |input| ==> !IsJsWhitespace(input[end]))
  {
    var rest := Substring(input, e, |input|);
    assert rest == input[e..];
    var end := e + WhitespaceRun(rest);
    forall i | e <= i < end
      ensures IsJsWhitespace(input[i])
    {
      assert input[i] == rest[i - e];
    }
    if end < |input| {
      assert input[end] == rest[end - e];
    }
  }

  /**
   * `p.assert(test)` succeeds with `p`'s value and position exactly when `p` succeeds and the
   * predicate holds of `(value, input, position)`; otherwise it fails where `p` ended.
   */
  lemma AssertSemantics(g: Grammar, p: NodeId, test: nat, input: string, pos: nat, fuel: nat)
    requires Canonical(g)
    ensures var b := Assert(g, p, test);
      var a := ParseId(b.g, p, input, pos, fuel + 2);
      var r := ParseId(b.g, b.id, input, pos, fuel + 3);
      && (!(a.Done? && a.result.status) ==> r == a)
      && (a.Done? && a.result.status ==>
            r == Done(if g.env.predicates(test)(a.result.value, input, a.result.position)
                      then Reply(true, a.result.value, a.result.position)
                      else MakeFailure(a.result.position)))
  {
    var b := Assert(g, p, test);
    ExtendsKeepsCanonical(g, b.g);
    assert ParseId(b.g, b.id, input, pos, fuel + 3) == ParseNode(b.g, Chained(p, AssertThat(test)), input, pos, fuel + 3);
    AssertedReply(b.g, p, test, input, pos, fuel);
  }

  /** The node `Assert` appends, in any grammar with the shared nodes in place. */
  lemma AssertedReply(g: Grammar, p: NodeId, test: nat, input: string, pos: nat, fuel: nat)
    requires Canonical(g)
    ensures var a := ParseId(g, p, input, pos, fuel + 2);
      var r := ParseNode(g, Chained(p, AssertThat(test)), input, pos, fuel + 3);
      && (!(a.Done? && a.result.status) ==> r == a)
      && (a.Done? && a.result.status ==>
            r == Done(if g.env.predicates(test)(a.result.value, input, a.result.position)
                      then Reply(true, a.result.value, a.result.position)
                      else MakeFailure(a.result.position)))
  {
    var a := ParseId(g, p, input, pos, fuel + 2);
    if a.Done? && a.result.status {
      var v := a.result.value;
      var end := a.result.position;
      assert ParseId(g, SuccessId, input, end, fuel + 1) == Done(MakeSuccess(end, Str("")));
      if g.env.predicates(test)(v, input, end) {
        assert ParseNode(g, Mapping(SuccessId, Constant(v)), input, end, fuel + 2) == Done(Reply(true, v, end));
      } else {
        assert ParseNode(g, Failure, input, end, fuel + 2) == Done(MakeFailure(end));
      }
    }
  }


  /** `p.join()` turns an array value into the concatenation of its elements' texts. */
  lemma JoinSemantics(g: Grammar, p: NodeId, separator: string, input: string, pos: nat, fuel: nat)
    ensures var b := Join(g, p, separator);
      var a := ParseId(b.g, p, input, pos, fuel);
      var r := ParseId(b.g, b.id, input, pos, fuel + 1);
      && (!(a.Done? && a.result.status) ==> r == a)
      && (a.Done? && a.result.status ==>
            && r.Done? && r.result.status && r.result.position == a.result.position
            && (!a.result.value.Arr? ==> r.result.value == a.result.value)
            && (a.result.value.Arr? && AllStrings(a.result.value.items) ==>
                  r.result.value == Str(Concat(Texts(a.result.value.items)))))
  {
    var b := Join(g, p, separator);
    var a := ParseId(b.g, p, input, pos, fuel);
    if a.Done? && a.result.status && a.result.value.Arr? && AllStrings(a.result.value.items) {
      JoinStringsIsConcat(a.result.value.items);
    }
  }

  /** The separator given to `join` is ignored: every separator builds the same grammar. */
  lemma JoinIgnoresSeparator(g: Grammar, p: NodeId, s1: string, s2: string)
    ensures Join(g, p, s1) == Join(g, p, s2)
  {
  }

  /** `allowTrailing` is ignored: both settings build the same grammar. */
  lemma SepByIgnoresTrailing(g: Grammar, p: NodeId, sep: NodeId)
    requires Canonical(g)
    ensures SepBy(g, p, sep, true) == SepBy(g, p, sep, false)
  {
  }

  /** `lookahead(p)` succeeds with `""` exactly when `p` succeeds, and consumes nothing. */
  lemma LookaheadSemantics(g: Grammar, p: NodeId, input: string, pos: nat, fuel: nat)
    ensures var b := Lookahead(g, p);
      var a := ParseId(b.g, p, input, pos, fuel);
      var r := ParseId(b.g, b.id, input, pos, fuel + 1);
      && (a.Done? ==> r.Done? && r.result.position == pos && (r.result.status <==> a.result.status))
      && (r.Done? && r.result.status ==> r.result.value == Str(""))
      && (!a.Done? ==> r == a)
  {
  }

  /** `str("")` parses like the success parser but is a different node: it is not strictly
      equal to it. */
  lemma EmptyLiteralIsNotSuccess(g: Grammar, input: string, pos: nat, fuel: nat)
    ensures var b := StrOf(g, "");
      && ParseId(b.g, b.id, input, pos, fuel + 1) == ParseNode(b.g, Success, input, pos, fuel + 1)
      && !StrictlyEqualsSuccess(b.g.nodes[b.id])
  {
  }
}

=== FILE: examples.dfy ===
/**
 * Small grammars from the repository's own test expectations, evaluated in the model: how they
 * parse and how they print.
 */
module Examples {
  import opened Wrappers
  import opened Values
  import opened Replies
  import opened Nodes
  import opened Grammars
  import opened Parsing
  import opened Text
  import opened Printing
  import opened Builder
  import opened ParseLaws
  import opened BuilderLaws

  /** An environment with no regular expressions or functions in use. */
  const Plain: Env := Env(
    (_: nat) => "",
    (_: nat) => (_: string) => None,
    (_: nat) => "",
    (_: nat) => (v: Value) => v,
    (_: nat) => (_: Value, _: string, _: nat) => None,
    (_: nat) => (_: Value, _: string, _: nat) => false)

  const Shared: seq<Node> := [Success, Failure, Pattern(OptWhitespaceRegex, 0)]

  /** `seq(str("alpha"), str("beta"))`. */
  const AlphaBeta: Grammar := Grammar(Shared + [Literal("alpha"), Literal("beta"), Sequence([3, 4])], Plain)

  lemma AlphaBetaParses()
    ensures ParseValue(AlphaBeta, 5, "alphabeta", 4) == Done(Arr([Str("alpha"), Str("beta")]))
    ensures ParseValue(AlphaBeta, 5, "alpha beta", 4) == Raised(ParsingErrorMessage)
    ensures ParseValue(AlphaBeta, 5, "alphabeta ", 4) == Raised(ParsingErrorMessage)
    ensures ParseValue(AlphaBeta, 5, "alph", 4) == Raised(ParsingErrorMessage)
    ensures ParseValue(AlphaBeta, 5, " alphabeta", 4) == Raised(ParsingErrorMessage)
  {
    AlphaBetaAccepts();
    AlphaBetaRejects();
  }

  lemma AlphaBetaAccepts()
    ensures ParseValue(AlphaBeta, 5, "alphabeta", 4) == Done(Arr([Str("alpha"), Str("beta")]))
    ensures ParseValue(AlphaBeta, 5, "alphabeta ", 4) == Raised(ParsingErrorMessage)
  {
    AlphaBetaWords("alphabeta");
    AlphaBetaWords("alphabeta ");
  }

  /** Both words read from the start, whatever follows them. */
  lemma AlphaBetaWords(input: string)
    requires input == "alphabeta" || input == "alphabeta "
    ensures ParseId(AlphaBeta, 5, input, 0, 4) == Done(MakeSuccess(9, Arr([Str("alpha"), Str("beta")])))
  {
    var g := AlphaBeta;
    var alpha, beta := Str("alpha"), Str("beta");
    assert input[0..5] == "alpha" && input[5..9] == "beta";
    assert ParseId(g, 3, input, 0, 3) == Done(MakeSuccess(5, alpha));
    assert ParseId(g, 4, input, 5, 3) == Done(MakeSuccess(9, beta));
    assert [] + [alpha] == [alpha] && [alpha] + [beta] == [alpha, beta];
    assert SeqLoop(g, [3, 4], 2, input, 9, [alpha, beta], 3) == Done(MakeSuccess(9, Arr([alpha, beta])));
  }

  /** The inputs the test rejects at the first or second word. */
  lemma AlphaBetaRejects()
    ensures ParseValue(AlphaBeta, 5, "alpha beta", 4) == Raised(ParsingErrorMessage)
    ensures ParseValue(AlphaBeta, 5, "alph", 4) == Raised(ParsingErrorMessage)
    ensures ParseValue(AlphaBeta, 5, " alphabeta", 4) == Raised(ParsingErrorMessage)
  {
    var s := " alphabeta";
    assert s[0..5][0] == ' ';
  }

  /** `str("alpha").times(2)`. */
  const AlphaTwice: Grammar := Grammar(Shared + [Literal("alpha"), Times(3, 2, Finite(2))], Plain)

  lemma AlphaTwiceWords()
    ensures "alphaalpha"[0..5] == "alpha" && "alphaalpha"[5..10] == "alpha"
    ensures "alphaalphaalpha"[0..5] == "alpha" && "alphaalphaalpha"[5..10] == "alpha"
    ensures "alpha"[0..5] == "alpha"
  {
  }

  lemma AlphaTwiceParses()
    ensures ParseValue(AlphaTwice, 4, "alphaalpha", 6) == Done(Arr([Str("alpha"), Str("alpha")]))
    ensures ParseValue(AlphaTwice, 4, "alpha", 6) == Raised(ParsingErrorMessage)
    ensures ParseValue(AlphaTwice, 4, "alphaalphaalpha", 6) == Raised(ParsingErrorMessage)
  {
    AlphaTwiceWords();
    AlphaTwiceReadsTwo(AlphaTwice, "alphaalpha");
    AlphaTwiceReadsTwo(AlphaTwice, "alphaalphaalpha");
    AlphaTwiceShort();
  }

  /** Two rounds of `alpha` at the start of the input: the repetition stops after them. */
  lemma AlphaTwiceReadsTwo(g: Grammar, input: string)
    requires |g.nodes| == 5 && g.nodes[3] == Literal("alpha") && g.nodes[4] == Times(3, 2, Finite(2))
    requires |input| >= 10 && input[0..5] == "alpha" && input[5..10] == "alpha"
    ensures ParseId(g, 4, input, 0, 6) == Done(MakeSuccess(10, Arr([Str("alpha"), Str("alpha")])))
  {
    var alpha := Str("alpha");
    LiteralReads(g, 3, "alpha", input, 0, 3);
    LiteralReads(g, 3, "alpha", input, 5, 2);
    TimesStarts(g, 3, 2, Finite(2), input, 0, 5);
    TimesRound(g, 3, 2, Finite(2), input, 0, [], 4);
    TimesRound(g, 3, 2, Finite(2), input, 5, [alpha], 3);
    assert [] + [alpha] == [alpha] && [alpha] + [alpha] == [alpha, alpha];
    assert TimesLoop(g, 3, 2, Finite(2), input, 10, [alpha, alpha], 3) == Done(MakeSuccess(10, Arr([alpha, alpha])));
  }

  /** One `alpha` is one round short: the second round's failure is the repetition's. */
  lemma AlphaTwiceShort()
    ensures ParseId(AlphaTwice, 4, "alpha", 0, 6) == Done(MakeFailure(5))
  {
    var g, input := AlphaTwice, "alpha";
    var alpha := Str("alpha");
    AlphaTwiceWords();
    LiteralReads(g, 3, "alpha", input, 0, 3);
    assert ParseId(g, 3, input, 5, 3) == Done(MakeFailure(5));
    TimesStarts(g, 3, 2, Finite(2), input, 0, 5);
    TimesRound(g, 3, 2, Finite(2), input, 0, [], 4);
    assert [] + [alpha] == [alpha];
    TimesStopsAtFailure(g, 3, 2, Finite(2), input, 5, [alpha], 3);
  }

  /** `Plain`, except that every pattern is the whitespace pattern `\s*`. */
  const Spaced: Env := Plain.(regexExec := (_: nat) => WhitespaceExec)

  lemma SpacedIsWhitespace()
    ensures WhitespacePattern(Spaced)
  {
  }

  /** `seq(str("a").skipSpace(), str("b"))`. */
  const SkipThenB: Grammar := Grammar(Shared + [Literal("a"), Sequence([3, OptWhitespaceId]), Mapping(4, FirstElement),
    Literal("b"), Sequence([5, 6])], Spaced)

  /** The blanks after the `a` in each input of the skip-space test. */
  lemma BlankRuns()
    ensures WhitespaceRun("b") == 0 && WhitespaceRun("ba") == 0 && WhitespaceRun("    b") == 4
  {
    var s := "    b";
    assert s[1..] == "   b" && s[1..][1..] == "  b" && s[1..][1..][1..] == " b";
    assert s[1..][1..][1..][1..] == "b";
  }

  /** The shared pattern, run after the `a`, stops after `k` blanks. */
  lemma SkippedBlanks(input: string, k: nat)
    requires (input == "ab" && k == 0) || (input == "a    b" && k == 4) || (input == "aba" && k == 0)
    ensures var w := PatternParse(Spaced, OptWhitespaceRegex, 0, input, 1);
      w.status && w.position == 1 + k
  {
    WhitespaceSkipped(Spaced, input, 1);
    assert Substring(input, 1, |input|) == input[1..];
    BlankRuns();
  }

  /** `str("a").skipSpace()` reads the `a` and the `k` blanks after it. */
  lemma SkippedHead(input: string, k: nat)
    requires (input == "ab" && k == 0) || (input == "a    b" && k == 4) || (input == "aba" && k == 0)
    ensures ParseId(SkipThenB, 5, input, 0, 5) == Done(Reply(true, Str("a"), 1 + k))
  {
    var g := SkipThenB;
    if input == "ab" {
      assert input[0..1] == "a";
    } else if input == "aba" {
      assert input[0..1] == "a";
    } else {
      assert input[0..1] == "a";
    }
    LiteralReads(g, 3, "a", input, 0, 2);
    FirstOfPairLaw(g, 5, 4, 3, OptWhitespaceId, OptWhitespaceRegex, input, 0, 3);
    SkippedBlanks(input, k);
  }

  /** After the skipped blanks comes the `b`, and the sequence pairs the two values. */
  lemma SkipThenBAccepts(input: string, k: nat)
    requires (input == "ab" && k == 0) || (input == "a    b" && k == 4)
    ensures ParseValue(SkipThenB, 7, input, 6) == Done(Arr([Str("a"), Str("b")]))
  {
    var g := SkipThenB;
    var a, b := Str("a"), Str("b");
    SkippedHead(input, k);
    assert input[1 + k..2 + k] == "b";
    assert ParseId(g, 6, input, 1 + k, 5) == Done(MakeSuccess(2 + k, b));
    assert [] + [a] == [a] && [a] + [b] == [a, b];
    assert SeqLoop(g, [5, 6], 0, input, 0, [], 5) == Done(MakeSuccess(2 + k, Arr([a, b])));
  }

  lemma SkipSpaceParses()
    ensures ParseValue(SkipThenB, 7, "ab", 6) == Done(Arr([Str("a"), Str("b")]))
    ensures ParseValue(SkipThenB, 7, "a    b", 6) == Done(Arr([Str("a"), Str("b")]))
    ensures ParseValue(SkipThenB, 7, "aba", 6) == Raised(ParsingErrorMessage)
  {
    var g := SkipThenB;
    var a, b := Str("a"), Str("b");
    assert [] + [a] == [a] && [a] + [b] == [a, b];
    SkipThenBAccepts("ab", 0);
    SkipThenBAccepts("a    b", 4);
    var input := "aba";
    SkippedHead(input, 0);
    assert ParseId(g, 6, input, 1, 5) == Done(MakeSuccess(2, b));
    assert SeqLoop(g, [5, 6], 0, input, 0, [], 5) == Done(MakeSuccess(2, Arr([a, b])));
  }

  /** `seq(str("a"), str("b").opt(), str("c")).join()`. */
  const OptionalB: Grammar := Grammar(Shared + [Literal("a"), Literal("b"), Alternative([4, SuccessId]), Literal("c"), Sequence([3, 5, 6]), Mapping(7, Joiner)], Plain)

  lemma OptionalBParses()
    ensures ParseValue(OptionalB, 8, "abc", 5) == Done(Str("abc"))
    ensures ParseValue(OptionalB, 8, "ac", 5) == Done(Str("ac"))
    ensures ParseValue(OptionalB, 8, "acd", 5) == Raised(ParsingErrorMessage)
  {
    OptionalBJoined("abc", Str("b"), 2, "abc");
    OptionalBJoined("ac", Str(""), 1, "ac");
    OptionalBJoined("acd", Str(""), 1, "ac");
  }

  lemma OptionalBJoined(input: string, middle: Value, cAt: nat, text: string)
    requires || (input == "abc" && middle == Str("b") && cAt == 2 && text == "abc")
             || ((input == "ac" || input == "acd") && middle == Str("") && cAt == 1 && text == "ac")
    ensures ParseId(OptionalB, 8, input, 0, 5) == Done(Reply(true, Str(text), cAt + 1))
  {
    OptionalBRun(input, middle, cAt);
    JoinedText(middle, text);
    MappingLaw(OptionalB, 7, Joiner, input, 0, 4);
    assert OptionalB.nodes[8] == Mapping(7, Joiner);
  }

  lemma JoinedText(middle: Value, text: string)
    requires (middle == Str("b") && text == "abc") || (middle == Str("") && text == "ac")
    ensures ApplyMapper(Plain, Joiner, Arr([Str("a"), middle, Str("c")])) == Ok(Str(text))
  {
    var xs := [Str("a"), middle, Str("c")];
    JoinStringsIsConcat(xs);
    var parts := ["a", middle.text, "c"];
    assert Texts(xs) == parts;
    assert parts[..2] == ["a", middle.text];
    assert parts[..2][..1] == ["a"];
    assert ["a"][..0] == [];
    assert Concat(["a"]) == "a";
    assert Concat(["a", middle.text]) == "a" + middle.text;
    assert Concat(parts) == "a" + middle.text + "c";
    assert JoinItems(xs, "") == text;
  }

  /** The optional `b` after the `a`: the `b` itself, or the empty success in its place. */
  lemma OptionalBMiddle(input: string, middle: Value, cAt: nat)
    requires || (input == "abc" && middle == Str("b") && cAt == 2)
             || ((input == "ac" || input == "acd") && middle == Str("") && cAt == 1)
    ensures ParseId(OptionalB, 5, input, 1, 3) == Done(MakeSuccess(cAt, middle))
  {
    OptionalBLetters(input, cAt);
    if cAt == 2 {
      OptionalBTaken(OptionalB, input);
    } else {
      OptionalBSkipped(OptionalB, input);
    }
  }

  /** `str("b").opt()` at a `b`: the `b`. */
  lemma OptionalBTaken(g: Grammar, input: string)
    requires |g.nodes| > 5 && g.nodes[4] == Literal("b") && g.nodes[5] == Alternative([4, SuccessId])
    requires |input| >= 2 && input[1..2] == "b"
    ensures ParseId(g, 5, input, 1, 3) == Done(MakeSuccess(2, Str("b")))
  {
    LiteralReads(g, 4, "b", input, 1, 1);
    AlternativeFirstWins(g, [4, SuccessId], 0, input, 1, 2);
  }

  /** `str("b").opt()` at a `c`: the empty success in place of the `b`. */
  lemma OptionalBSkipped(g: Grammar, input: string)
    requires |g.nodes| > 5 && g.nodes[SuccessId] == Success
    requires g.nodes[4] == Literal("b") && g.nodes[5] == Alternative([4, SuccessId])
    requires |input| >= 2 && input[1..2] == "c"
    ensures ParseId(g, 5, input, 1, 3) == Done(MakeSuccess(1, Str("")))
  {
    assert input[1..2] != "b";
    assert ParseId(g, 4, input, 1, 2) == Done(MakeFailure(1));
    assert ParseId(g, SuccessId, input, 1, 2) == Done(MakeSuccess(1, Str("")));
    AlternativeFirstWins(g, [4, SuccessId], 1, input, 1, 2);
  }

  /** Three children that succeed one after the other give the array of their three values. */
  lemma SequenceOfThree(g: Grammar, x: NodeId, y: NodeId, z: NodeId, input: string, pos: nat, fuel: nat)
    requires ParseId(g, x, input, pos, fuel).Done? && ParseId(g, x, input, pos, fuel).result.status
    requires var a := ParseId(g, x, input, pos, fuel).result;
      ParseId(g, y, input, a.position, fuel).Done? && ParseId(g, y, input, a.position, fuel).result.status
    requires var a := ParseId(g, x, input, pos, fuel).result;
      var b := ParseId(g, y, input, a.position, fuel).result;
      ParseId(g, z, input, b.position, fuel).Done? && ParseId(g, z, input, b.position, fuel).result.status
    ensures var a := ParseId(g, x, input, pos, fuel).result;
      var b := ParseId(g, y, input, a.position, fuel).result;
      var c := ParseId(g, z, input, b.position, fuel).result;
      ParseNode(g, Sequence([x, y, z]), input, pos, fuel + 1) == Done(MakeSuccess(c.position, Arr([a.value, b.value, c.value])))
  {
    var items := [x, y, z];
    var a := ParseId(g, x, input, pos, fuel).result;
    var b := ParseId(g, y, input, a.position, fuel).result;
    SeqLoopStep(g, items, 0, input, pos, [], fuel);
    SeqLoopStep(g, items, 1, input, a.position, [a.value], fuel);
    SeqLoopStep(g, items, 2, input, b.position, [a.value, b.value], fuel);
    var c := ParseId(g, z, input, b.position, fuel).result;
    assert [] + [a.value] == [a.value] && [a.value] + [b.value] == [a.value, b.value];
    assert [a.value, b.value] + [c.value] == [a.value, b.value, c.value];
  }

  /** Where the `a` and the `c` sit in each input of the optional-`b` test. */
  lemma OptionalBLetters(input: string, cAt: nat)
    requires (input == "abc" && cAt == 2) || ((input == "ac" || input == "acd") && cAt == 1)
    ensures input[0..1] == "a" && cAt + 1 <= |input| && input[cAt..cAt + 1] == "c"
    ensures cAt == 2 ==> input[1..2] == "b"
  {
    if input == "abc" {
      assert input[0..1] == "a" && input[1..2] == "b" && input[2..3] == "c";
    } else if input == "ac" {
      assert input[0..1] == "a" && input[1..2] == "c";
    } else {
      assert input[0..1] == "a" && input[1..2] == "c";
    }
  }

  /** The sequence inside `OptionalB` on an input starting with `a`, then `b` or nothing, then `c`. */
  lemma OptionalBRun(input: string, middle: Value, cAt: nat)
    requires || (input == "abc" && middle == Str("b") && cAt == 2)
             || ((input == "ac" || input == "acd") && middle == Str("") && cAt == 1)
    ensures ParseId(OptionalB, 7, input, 0, 4) == Done(MakeSuccess(cAt + 1, Arr([Str("a"), middle, Str("c")])))
  {
    var g := OptionalB;
    OptionalBLetters(input, cAt);
    LiteralReads(g, 3, "a", input, 0, 2);
    OptionalBMiddle(input, middle, cAt);
    LiteralReads(g, 6, "c", input, cAt, 2);
    SequenceOfThree(g, 3, 5, 6, input, 0, 3);
  }

  /**
   * `str("a").sepBy(str(","))`: the separated list, with a literal separator; nodes 5 to 9 are
   * the five `Builder.SepByBuilds` names for the item at 3 and the separator at 4.
   */
  const CommaList: Grammar := Grammar(Shared + [Literal("a"), Literal(","), Sequence([4, 3]), Mapping(5, SecondElement),
    Times(6, 0, Infinity), Sequence([3, 7]), Mapping(8, Flatten)], Plain)

  /** One `,a` item of the tail, read from the comma at `pos`. */
  lemma CommaItem(pos: nat, fuel: nat)
    requires (pos == 1 && fuel == 5) || (pos == 3 && fuel == 4)
    ensures ParseId(CommaList, 6, "a,a,a", pos, fuel) == Done(Reply(true, Str("a"), pos + 2))
  {
    var g, input := CommaList, "a,a,a";
    if pos == 1 {
      assert input[pos..pos + 1] == "," && input[pos + 1..pos + 2] == "a";
    } else {
      assert input[pos..pos + 1] == "," && input[pos + 1..pos + 2] == "a";
    }
    LiteralReads(g, 4, ",", input, pos, fuel - 3);
    LiteralReads(g, 3, "a", input, pos + 1, fuel - 3);
    SeparatedItemLaw(g, 6, 5, 4, 3, input, pos, fuel - 2);
  }

  /** The separated tail after the first `a` of "a,a,a": two items, then the end of the input. */
  lemma CommaTail()
    ensures ParseId(CommaList, 7, "a,a,a", 1, 7) == Done(MakeSuccess(5, Arr([Str("a"), Str("a")])))
  {
    var g, input := CommaList, "a,a,a";
    var a := Str("a");
    TimesStarts(g, 6, 0, Infinity, input, 1, 6);
    CommaItem(1, 5);
    TimesRound(g, 6, 0, Infinity, input, 1, [], 5);
    assert [] + [a] == [a];
    CommaItem(3, 4);
    TimesRound(g, 6, 0, Infinity, input, 3, [a], 4);
    assert [a] + [a] == [a, a];
    CommaTailEnd();
  }

  /** At the end of "a,a,a" no comma follows, and the tail stops with its two items. */
  lemma CommaTailEnd()
    ensures var a := Str("a");
      TimesLoop(CommaList, 6, 0, Infinity, "a,a,a", 5, [a, a], 4) == Done(MakeSuccess(5, Arr([a, a])))
  {
    var g, input := CommaList, "a,a,a";
    assert ParseId(g, 4, input, 5, 1) == Done(MakeFailure(5));
    assert ParseId(g, 6, input, 5, 3) == Done(MakeFailure(5));
    TimesStopsAtFailure(g, 6, 0, Infinity, input, 5, [Str("a"), Str("a")], 3);
  }

  /** The tail is empty when no comma follows the first `a`. */
  lemma EmptyCommaTail(input: string)
    requires input == "a" || input == "aba"
    ensures ParseId(CommaList, 7, input, 1, 7) == Done(MakeSuccess(1, Arr([])))
  {
    var g := CommaList;
    assert input == "aba" ==> input[1..2] == "b";
    assert ParseId(g, 4, input, 1, 3) == Done(MakeFailure(1));
    assert ParseId(g, 6, input, 1, 5) == Done(MakeFailure(1));
  }

  /** The repository's separated-list test, with a literal comma as the separator. */
  lemma CommaListParses()
    ensures ParseValue(CommaList, 9, "a,a,a", 9) == Done(Arr([Str("a"), Str("a"), Str("a")]))
    ensures ParseValue(CommaList, 9, "a", 9) == Done(Arr([Str("a")]))
    ensures ParseValue(CommaList, 9, "aba", 9) == Raised(ParsingErrorMessage)
  {
    var g := CommaList;
    var a := Str("a");
    forall input: string | input in {"a,a,a", "a", "aba"}
      ensures ParseId(g, 3, input, 0, 7) == Done(MakeSuccess(1, a))
    {
      assert input[0..1] == "a";
    }
    CommaTail();
    FlattenedPairLaw(g, 9, 8, 3, 7, "a,a,a", 0, 7);
    assert [a] + [a, a] == [a, a, a];
    EmptyCommaTail("a");
    FlattenedPairLaw(g, 9, 8, 3, 7, "a", 0, 7);
    EmptyCommaTail("aba");
    FlattenedPairLaw(g, 9, 8, 3, 7, "aba", 0, 7);
    assert [a] + [] == [a];
  }

  /** `rule = seq(str("a").opt(), lazy(() => rule))`: the rule refers to itself. */
  const SelfReference: Grammar := Grammar(Shared + [Literal("a"), Alternative([3, SuccessId]), Sequence([4, 6]), Lazy(5)], Plain)

  lemma SelfReferenceWellFormed()
    ensures WellFormed(SelfReference)
  {
    forall i | 0 <= i < |SelfReference.nodes|
      ensures RefsBelow(SelfReference.nodes[i], |SelfReference.nodes|) && ValidBounds(SelfReference.nodes[i])
    {
    }
  }

  lemma SelfReferenceItems()
    ensures WellFormed(SelfReference)
    ensures PrintItems(SelfReference, [4, 6], 0, {5}, 3, AsWritten) == PrintedList(["a?", Placeholder], {5, 4, 3, 6})
  {
    SelfReferenceWellFormed();
    var g := SelfReference;
    assert g.nodes == [Success, Failure, Pattern(OptWhitespaceRegex, 0), Literal("a"), Alternative([3, SuccessId]), Sequence([4, 6]), Lazy(5)];
    assert LiteralText("a") == "a";
    var first := Print(g, 4, {5}, 3, AsWritten);
    assert {5} + {4} == {5, 4};
    assert Print(g, 3, {5, 4}, 3, AsWritten) == Printed("a", {5, 4, 3});
    assert first == Printed(OptionalTextAsWritten("a", true, true), {5, 4, 3});
    assert first == Printed("a?", {5, 4, 3});
    assert Print(g, 5, {5, 4, 3, 6}, 3, AsWritten) == Printed(Placeholder, {5, 4, 3, 6});
    assert Print(g, 6, {5, 4, 3}, 3, AsWritten) == Printed(Placeholder, {5, 4, 3, 6});
    assert PrintItems(g, [4, 6], 2, {5, 4, 3, 6}, 3, AsWritten) == PrintedList([], {5, 4, 3, 6});
    assert PrintItems(g, [4, 6], 1, first.visited, 3, AsWritten) == PrintedList([Placeholder], {5, 4, 3, 6});
  }

  lemma SelfReferenceRoot()
    ensures WellFormed(SelfReference)
    ensures Print(SelfReference, 5, {}, 2, AsWritten).text ==
      "SEQ<\n" + JoinStrings(Prefixed(Indent(3), ["a?", Placeholder]), "\n") + "\n" + Indent(2) + ">"
  {
    SelfReferenceItems();
    var g := SelfReference;
    assert g.nodes[5] == Sequence([4, 6]);
    assert {} + {5} == {5};
  }

  /** The two printed items, indented and joined by line breaks. */
  lemma SelfReferenceLines()
    ensures JoinStrings(Prefixed(Indent(3), ["a?", Placeholder]), "\n") == Indent(3) + "a?" + "\n" + Indent(3) + Placeholder
  {
    var lines := Prefixed(Indent(3), ["a?", Placeholder]);
    assert lines == [Indent(3) + "a?", Indent(3) + Placeholder];
    assert lines[..1] == [Indent(3) + "a?"];
  }

  /** The recursive reference prints as the placeholder, and the literal operand of the
      optional prints without brackets. */
  lemma SelfReferencePrints()
    ensures WellFormed(SelfReference)
    ensures GrammarText(SelfReference, 5, 2, true) ==
      "\n" + Indent(2) + "SEQ<\n" + Indent(3) + "a?\n" + Indent(3) + "<...>\n" + Indent(2) + ">"
  {
    SelfReferenceRoot();
    SelfReferenceLines();
    var body := Indent(3) + "a?" + "\n" + Indent(3) + Placeholder;
    assert GrammarText(SelfReference, 5, 2, true) == "\n" + Indent(2) + ("SEQ<\n" + body + "\n" + Indent(2) + ">");
  }

}

=== FILE: grammars.dfy ===
/**
 * A grammar: the arena of nodes plus the environment of foreign functions the nodes name
 * (compiled regular expressions, mapper functions, chain continuations, assert predicates).
 */
module Grammars {
  import opened Wrappers
  import opened Text
  import opened Values
  import opened Nodes

  /** The array `RegExp.prototype.exec` returns: the whole match and the capture groups. */
  datatype RegexMatch = RegexMatch(whole: string, captures: seq<Value>)

  datatype Env = Env(
    /** `regexp.source`, printed between slashes. */
    regexSource: nat -> string,
    /** The anchored regular expression `^(?:source)` applied to the rest of the input. */
    regexExec: nat -> string -> Option<RegexMatch>,
    /** A mapper function's own source text, as `Function.prototype.toString` gives it. */
    mapperSource: nat -> string,
    mappers: nat -> Value -> Value,
    /** `fn(value, input, position)`; `None` stands for a continuation returning no grammar. */
    continuations: nat -> (Value, string, nat) -> Option<Node>,
    predicates: nat -> (Value, string, nat) -> bool)

  datatype Grammar = Grammar(nodes: seq<Node>, env: Env)

  /** Every child reference of `n` names a node of an arena of `count` nodes. */
  predicate RefsBelow(n: Node, count: nat) {
    forall c :: c in Unwrap(n) ==> c < count
  }

  /** The repetition constructor rejects `min > max`. */
  predicate ValidBounds(n: Node) {
    n.Times? && n.max.Finite? ==> n.min <= n.max.n
  }

  /** Every reference resolves and every repetition was constructible. */
  predicate WellFormed(g: Grammar) {
    forall i :: 0 <= i < |g.nodes| ==> RefsBelow(g.nodes[i], |g.nodes|) && ValidBounds(g.nodes[i])
  }

  /** The regular expressions are anchored: a match is always a prefix of the text searched. */
  ghost predicate Anchored(env: Env) {
    forall rx: nat, s: string :: env.regexExec(rx)(s).Some? ==> env.regexExec(rx)(s).value.whole <= s
  }

  /** The singletons every grammar shares: `SuccessParser.instance`, `FailureParser.instance`
      and the predefined `optWhitespace` pattern (any run of whitespace). */
  const SuccessId: NodeId := 0
  const FailureId: NodeId := 1
  const OptWhitespaceId: NodeId := 2
  const OptWhitespaceRegex: nat := 0

  /** The shared pattern is `\s*`: anchored, it always matches, and matches the whitespace run. */
  ghost predicate WhitespacePattern(env: Env) {
    env.regexExec(OptWhitespaceRegex) == WhitespaceExec
  }

  /** `exec` of the anchored `\s*`: always a match, of the leading whitespace, with no groups. */
  function WhitespaceExec(s: string): (r: Option<RegexMatch>)
    ensures r.Some? && r.value.whole <= s && r.value.captures == []
    ensures forall i :: 0 <= i < |r.value.whole| ==> IsJsWhitespace(r.value.whole[i])
    ensures |r.value.whole| < |s| ==> !IsJsWhitespace(s[|r.value.whole|])
  {
    Some(RegexMatch(s[..WhitespaceRun(s)], []))
  }

  predicate Canonical(g: Grammar) {
    && |g.nodes| >= 3
    && g.nodes[SuccessId] == Success
    && g.nodes[FailureId] == Failure
    && g.nodes[OptWhitespaceId] == Pattern(OptWhitespaceRegex, 0)
  }
}

=== FILE: invariants.dfy ===
/**
 * Facts about every parse, proved over the whole mutual recursion: fuel only decides whether an
 * attempt finishes, never what it returns; and every reply lies between the start position and
 * the end of the input, with failures carrying no value.
 */
module ParseInvariants {
  import opened Values
  import opened Replies
  import opened Nodes
  import opened Grammars
  import opened Parsing

  /**
   * A reply to a parse started at `pos` never moves backwards, stays within the input when
   * started within it, and carries no value when it is a failure.
   */
  ghost predicate Sane(a: Attempt<Reply>, input: string, pos: nat) {
    a.Done? ==>
      && pos <= a.result.position
      && (pos <= |input| ==> a.result.position <= |input|)
      && (!a.result.status ==> a.result.value == Null)
  }

  lemma {:induction false} ParseIdSane(g: Grammar, id: NodeId, input: string, pos: nat, fuel: nat)
    requires Anchored(g.env)
    ensures Sane(ParseId(g, id, input, pos, fuel), input, pos)
    decreases fuel, 1, 0
  {
    if id < |g.nodes| {
      ParseNodeSane(g, g.nodes[id], input, pos, fuel);
    }
  }

  lemma {:induction false} ParseNodeSane(g: Grammar, n: Node, input: string, pos: nat, fuel: nat)
    requires Anchored(g.env)
    ensures Sane(ParseNode(g, n, input, pos, fuel), input, pos)
    decreases fuel, 0, 0
  {
    if fuel > 0 {
      match n
      case Literal(t) =>
      case Success =>
      case Failure =>
      case Pattern(rx, group) =>
        var rest := Substring(input, pos, |input|);
        if pos <= |input| {
          assert rest == input[pos..];
        }
      case Sequence(items) => SeqLoopSane(g, items, 0, input, pos, [], fuel - 1);
      case Alternative(items) => AltLoopSane(g, items, 0, input, pos, fuel - 1);
      case Times(c, min, max) => TimesLoopSane(g, c, min, max, input, pos, [], fuel - 1);
      case Mapping(c, m) => ParseIdSane(g, c, input, pos, fuel - 1);
      case Chained(c, k) =>
        var a := ParseId(g, c, input, pos, fuel - 1);
        ParseIdSane(g, c, input, pos, fuel - 1);
        if a.Done? && a.result.status {
          match Continue(g, k, a.result.value, input, a.result.position)
          case None =>
          case Some(next) => ParseNodeSane(g, next, input, a.result.position, fuel - 1);
        }
      case Lookaround(c, kind) =>
      case Lazy(t) => ParseIdSane(g, t, input, pos, fuel - 1);
    }
  }

  lemma {:induction false} SeqLoopSane(g: Grammar, items: seq<NodeId>, i: nat, input: string, pos: nat, acc: seq<Value>, fuel: nat)
    requires Anchored(g.env) && i <= |items|
    ensures Sane(SeqLoop(g, items, i, input, pos, acc, fuel), input, pos)
    decreases fuel, 2, |items| - i
  {
    if i < |items| {
      var a := ParseId(g, items[i], input, pos, fuel);
      ParseIdSane(g, items[i], input, pos, fuel);
      if a.Done? && a.result.status {
        SeqLoopSane(g, items, i + 1, input, a.result.position, acc + [a.result.value], fuel);
      }
    }
  }

  lemma {:induction false} AltLoopSane(g: Grammar, items: seq<NodeId>, i: nat, input: string, pos: nat, fuel: nat)
    requires Anchored(g.env) && i <= |items|
    ensures Sane(AltLoop(g, items, i, input, pos, fuel), input, pos)
    decreases fuel, 2, |items| - i
  {
    if i < |items| {
      var a := ParseId(g, items[i], input, pos, fuel);
      ParseIdSane(g, items[i], input, pos, fuel);
      if a.Done? && !a.result.status {
        AltLoopSane(g, items, i + 1, input, pos, fuel);
      }
    }
  }

  lemma {:induction false} TimesLoopSane(g: Grammar, child: NodeId, min: nat, max: Bound, input: string, pos: nat, acc: seq<Value>, fuel: nat)
    requires Anchored(g.env) && (max.Finite? ==> |acc| <= max.n)
    ensures Sane(TimesLoop(g, child, min, max, input, pos, acc, fuel), input, pos)
    decreases fuel, 2, 0
  {
    if Below(|acc|, max) && fuel > 0 {
      var a := ParseId(g, child, input, pos, fuel - 1);
      ParseIdSane(g, child, input, pos, fuel - 1);
      if a.Done? && a.result.status {
        TimesLoopSane(g, child, min, max, input, a.result.position, acc + [a.result.value], fuel - 1);
      }
    }
  }

  /** More fuel never changes an attempt that already finished. */
  lemma {:induction false} ParseIdMonotone(g: Grammar, id: NodeId, input: string, pos: nat, f1: nat, f2: nat)
    requires f1 <= f2 && ParseId(g, id, input, pos, f1) != OutOfFuel
    ensures ParseId(g, id, input, pos, f2) == ParseId(g, id, input, pos, f1)
    decreases f1, 1, 0
  {
    if id < |g.nodes| {
      ParseNodeMonotone(g, g.nodes[id], input, pos, f1, f2);
    }
  }

  lemma {:induction false} ParseNodeMonotone(g: Grammar, n: Node, input: string, pos: nat, f1: nat, f2: nat)
    requires f1 <= f2 && ParseNode(g, n, input, pos, f1) != OutOfFuel
    ensures ParseNode(g, n, input, pos, f2) == ParseNode(g, n, input, pos, f1)
    decreases f1, 0, 0
  {
    match n
    case Literal(t) =>
    case Success =>
    case Failure =>
    case Pattern(rx, group) =>
    case Sequence(items) => SeqLoopMonotone(g, items, 0, input, pos, [], f1 - 1, f2 - 1);
    case Alternative(items) => AltLoopMonotone(g, items, 0, input, pos, f1 - 1, f2 - 1);
    case Times(c, min, max) => TimesLoopMonotone(g, c, min, max, input, pos, [], f1 - 1, f2 - 1);
    case Mapping(c, m) => ParseIdMonotone(g, c, input, pos, f1 - 1, f2 - 1);
    case Chained(c, k) =>
      var a := ParseId(g, c, input, pos, f1 - 1);
      ParseIdMonotone(g, c, input, pos, f1 - 1, f2 - 1);
      if a.Done? && a.result.status {
        match Continue(g, k, a.result.value, input, a.result.position)
        case None =>
        case Some(next) => ParseNodeMonotone(g, next, input, a.result.position, f1 - 1, f2 - 1);
      }
    case Lookaround(c, kind) =>
      if !kind.IsBehind() {
        ParseIdMonotone(g, c, input, pos, f1 - 1, f2 - 1);
      }
    case Lazy(t) => ParseIdMonotone(g, t, input, pos, f1 - 1, f2 - 1);
  }

  lemma {:induction false} SeqLoopMonotone(g: Grammar, items: seq<NodeId>, i: nat, input: string, pos: nat, acc: seq<Value>, f1: nat, f2: nat)
    requires i <= |items| && f1 <= f2 && SeqLoop(g, items, i, input, pos, acc, f1) != OutOfFuel
    ensures SeqLoop(g, items, i, input, pos, acc, f2) == SeqLoop(g, items, i, input, pos, acc, f1)
    decreases f1, 2, |items| - i
  {
    if i < |items| {
      var a := ParseId(g, items[i], input, pos, f1);
      ParseIdMonotone(g, items[i], input, pos, f1, f2);
      if a.Done? && a.result.status {
        SeqLoopMonotone(g, items, i + 1, input, a.result.position, acc + [a.result.value], f1, f2);
      }
    }
  }

  lemma {:induction false} AltLoopMonotone(g: Grammar, items: seq<NodeId>, i: nat, input: string, pos: nat, f1: nat, f2: nat)
    requires i <= |items| && f1 <= f2 && AltLoop(g, items, i, input, pos, f1) != OutOfFuel
    ensures AltLoop(g, items, i, input, pos, f2) == AltLoop(g, items, i, input, pos, f1)
    decreases f1, 2, |items| - i
  {
    if i < |items| {
      var a := ParseId(g, items[i], input, pos, f1);
      ParseIdMonotone(g, items[i], input, pos, f1, f2);
      if a.Done? && !a.result.status {
        AltLoopMonotone(g, items, i + 1, input, pos, f1, f2);
      }
    }
  }

  lemma {:induction false} TimesLoopMonotone(g: Grammar, child: NodeId, min: nat, max: Bound, input: string, pos: nat, acc: seq<Value>, f1: nat, f2: nat)
    requires max.Finite? ==> |acc| <= max.n
    requires f1 <= f2 && TimesLoop(g, child, min, max, input, pos, acc, f1) != OutOfFuel
    ensures TimesLoop(g, child, min, max, input, pos, acc, f2) == TimesLoop(g, child, min, max, input, pos, acc, f1)
    decreases f1, 2, 0
  {
    if Below(|acc|, max) {
      var a := ParseId(g, child, input, pos, f1 - 1);
      ParseIdMonotone(g, child, input, pos, f1 - 1, f2 - 1);
      if a.Done? && a.result.status {
        TimesLoopMonotone(g, child, min, max, input, a.result.position, acc + [a.result.value], f1 - 1, f2 - 1);
      }
    }
  }
}

=== FILE: laws.dfy ===
/**
 * The behaviour of each node kind, stated against its children's replies. Each law gives the
 * node's reply from the replies of the parses it delegates to.
 */
module ParseLaws {
  import opened Wrappers
  import opened Values
  import opened Replies
  import opened Nodes
  import opened Grammars
  import opened Parsing
  import opened LazyCells

  /** A success reply with extra values put in front of its array value. */
  function Prepend(vs: seq<Value>, a: Attempt<Reply>): Attempt<Reply> {
    if a.Done? && a.result.status && a.result.value.Arr? then
      Done(Reply(true, Arr(vs + a.result.value.items), a.result.position))
    else a
  }

  lemma {:induction false} SeqLoopShift(g: Grammar, items: seq<NodeId>, i: nat, input: string, pos: nat, acc: seq<Value>, fuel: nat)
    requires 1 <= i <= |items|
    ensures SeqLoop(g, items, i, input, pos, acc, fuel) == SeqLoop(g, items[1..], i - 1, input, pos, acc, fuel)
    decreases |items| - i
  {
    if i < |items| {
      assert items[1..][i - 1] == items[i];
      var a := ParseId(g, items[i], input, pos, fuel);
      if a.Done? && a.result.status {
        SeqLoopShift(g, items, i + 1, input, a.result.position, acc + [a.result.value], fuel);
      }
    }
  }

  lemma {:induction false} SeqLoopAccumulates(g: Grammar, items: seq<NodeId>, i: nat, input: string, pos: nat, acc: seq<Value>, fuel: nat)
    requires i <= |items|
    ensures SeqLoop(g, items, i, input, pos, acc, fuel) == Prepend(acc, SeqLoop(g, items, i, input, pos, [], fuel))
    decreases |items| - i
  {
    if i == |items| {
      assert acc + [] == acc;
    } else {
      var a := ParseId(g, items[i], input, pos, fuel);
      if a.Done? && a.result.status {
        var v := a.result.value;
        var e := a.result.position;
        SeqLoopAccumulates(g, items, i + 1, input, e, acc + [v], fuel);
        SeqLoopAccumulates(g, items, i + 1, input, e, [v], fuel);
        var rest := SeqLoop(g, items, i + 1, input, e, [], fuel);
        assert SeqLoop(g, items, i, input, pos, acc, fuel) == SeqLoop(g, items, i + 1, input, e, acc + [v], fuel);
        assert SeqLoop(g, items, i, input, pos, [], fuel) == SeqLoop(g, items, i + 1, input, e, [] + [v], fuel);
        assert [] + [v] == [v];
        if rest.Done? && rest.result.status {
          assert acc + [v] + rest.result.value.items == acc + ([v] + rest.result.value.items);
        }
      }
    }
  }

  /** A child that succeeds adds its value and moves the sequence on to where it ended. */
  lemma SeqLoopStep(g: Grammar, items: seq<NodeId>, i: nat, input: string, pos: nat, acc: seq<Value>, fuel: nat)
    requires i < |items|
    requires ParseId(g, items[i], input, pos, fuel).Done? && ParseId(g, items[i], input, pos, fuel).result.status
    ensures var a := ParseId(g, items[i], input, pos, fuel).result;
      SeqLoop(g, items, i, input, pos, acc, fuel) == SeqLoop(g, items, i + 1, input, a.position, acc + [a.value], fuel)
  {
  }

  /**
   * A sequence is its first child followed by the sequence of the rest: the first child's
   * failure is the answer unchanged, otherwise the rest runs from where the first child ended
   * and its values follow the first child's value.
   */
  lemma SequenceCons(g: Grammar, first: NodeId, rest: seq<NodeId>, input: string, pos: nat, fuel: nat)
    ensures var a := ParseId(g, first, input, pos, fuel);
      ParseNode(g, Sequence([first] + rest), input, pos, fuel + 1) ==
        if !a.Done? || !a.result.status then a
        else Prepend([a.result.value], ParseNode(g, Sequence(rest), input, a.result.position, fuel + 1))
  {
    var items := [first] + rest;
    var a := ParseId(g, first, input, pos, fuel);
    assert items[0] == first;
    if a.Done? && a.result.status {
      var e := a.result.position;
      var v := a.result.value;
      assert [] + [v] == [v];
      assert ParseNode(g, Sequence(items), input, pos, fuel + 1) == SeqLoop(g, items, 1, input, e, [v], fuel);
      SeqLoopShift(g, items, 1, input, e, [v], fuel);
      assert items[1..] == rest;
      SeqLoopAccumulates(g, rest, 0, input, e, [v], fuel);
      assert ParseNode(g, Sequence(rest), input, e, fuel + 1) == SeqLoop(g, rest, 0, input, e, [], fuel);
    }
  }

  /** The empty sequence succeeds where it starts with no values. */
  lemma SequenceEmpty(g: Grammar, input: string, pos: nat, fuel: nat)
    ensures ParseNode(g, Sequence([]), input, pos, fuel + 1) == Done(MakeSuccess(pos, Arr([])))
  {
  }

  lemma {:induction false} AltLoopSkipsFailures(g: Grammar, items: seq<NodeId>, i: nat, j: nat, input: string, pos: nat, fuel: nat)
    requires i <= j <= |items|
    requires forall k :: i <= k < j ==> ParseId(g, items[k], input, pos, fuel).Done? && !ParseId(g, items[k], input, pos, fuel).result.status
    ensures AltLoop(g, items, i, input, pos, fuel) == AltLoop(g, items, j, input, pos, fuel)
    decreases j - i
  {
    if i < j {
      AltLoopSkipsFailures(g, items, i + 1, j, input, pos, fuel);
    }
  }

  /**
   * Order decides: when every child before `j` fails and child `j` does not, the alternative's
   * answer is exactly child `j`'s, whatever later children would do.
   */
  lemma AlternativeFirstWins(g: Grammar, items: seq<NodeId>, j: nat, input: string, pos: nat, fuel: nat)
    requires j < |items|
    requires forall k :: 0 <= k < j ==> ParseId(g, items[k], input, pos, fuel).Done? && !ParseId(g, items[k], input, pos, fuel).result.status
    requires var a := ParseId(g, items[j], input, pos, fuel); !(a.Done? && !a.result.status)
    ensures ParseNode(g, Alternative(items), input, pos, fuel + 1) == ParseId(g, items[j], input, pos, fuel)
  {
    AltLoopSkipsFailures(g, items, 0, j, input, pos, fuel);
  }

  /** When every child fails, the alternative fails at its own start, whatever the children reached. */
  lemma AlternativeAllFail(g: Grammar, items: seq<NodeId>, input: string, pos: nat, fuel: nat)
    requires forall k :: 0 <= k < |items| ==> ParseId(g, items[k], input, pos, fuel).Done? && !ParseId(g, items[k], input, pos, fuel).result.status
    ensures ParseNode(g, Alternative(items), input, pos, fuel + 1) == Done(MakeFailure(pos))
  {
    AltLoopSkipsFailures(g, items, 0, |items|, input, pos, fuel);
  }

  /**
   * A repetition built with `min <= max` succeeds with between `min` and `max` values and fails
   * only by returning a child's failure.
   */
  lemma TimesBounds(g: Grammar, c: NodeId, min: nat, max: Bound, input: string, pos: nat, fuel: nat)
    requires ValidBounds(Times(c, min, max))
    ensures var r := ParseNode(g, Times(c, min, max), input, pos, fuel);
      r.Done? && r.result.status ==>
        && r.result.value.Arr?
        && min <= |r.result.value.items|
        && (max.Finite? ==> |r.result.value.items| <= max.n)
    ensures var r := ParseNode(g, Times(c, min, max), input, pos, fuel);
      r.Done? && !r.result.status ==> min > 0
  {
  }

  /** A round in which the child fails ends the repetition: with enough rounds behind it, the
      values so far are the answer at the position before that round, else the child's failure. */
  lemma TimesStopsAtFailure(g: Grammar, c: NodeId, min: nat, max: Bound, input: string, pos: nat, acc: seq<Value>, fuel: nat)
    requires max.Finite? ==> |acc| < max.n
    requires ParseId(g, c, input, pos, fuel).Done? && !ParseId(g, c, input, pos, fuel).result.status
    ensures TimesLoop(g, c, min, max, input, pos, acc, fuel + 1) ==
      if |acc| >= min then Done(MakeSuccess(pos, Arr(acc))) else ParseId(g, c, input, pos, fuel)
  {
  }

  /** A repetition starts with no values at its own position. */
  lemma TimesStarts(g: Grammar, c: NodeId, min: nat, max: Bound, input: string, pos: nat, fuel: nat)
    ensures ParseNode(g, Times(c, min, max), input, pos, fuel + 1) == TimesLoop(g, c, min, max, input, pos, [], fuel)
  {
  }

  /**
   * A round in which the child succeeds adds the child's value to the values so far and moves
   * the repetition on to where the child ended; each round costs one unit of fuel.
   */
  lemma TimesRound(g: Grammar, c: NodeId, min: nat, max: Bound, input: string, pos: nat, acc: seq<Value>, fuel: nat)
    requires Below(|acc|, max)
    requires ParseId(g, c, input, pos, fuel).Done? && ParseId(g, c, input, pos, fuel).result.status
    ensures var a := ParseId(g, c, input, pos, fuel).result;
      TimesLoop(g, c, min, max, input, pos, acc, fuel + 1) == TimesLoop(g, c, min, max, input, a.position, acc + [a.value], fuel)
  {
  }

  /** `a` is a success that ends where it started. */
  ghost predicate StaysPut(a: Attempt<Reply>, pos: nat) {
    a.Done? && a.result.status && a.result.position == pos
  }

  /**
   * A repetition with no upper bound never ends when its child succeeds without consuming
   * input: every round starts where the last one did, and no fuel is enough. The source's loop
   * has no progress check, so it runs forever on such a child.
   */
  lemma {:induction false} ZeroWidthRepeatNeverEnds(g: Grammar, c: NodeId, min: nat, input: string, pos: nat, acc: seq<Value>, fuel: nat)
    requires forall f: nat :: 0 < f ==> StaysPut(ParseId(g, c, input, pos, f), pos)
    ensures TimesLoop(g, c, min, Infinity, input, pos, acc, fuel) == OutOfFuel
    decreases fuel
  {
    if fuel > 0 {
      assert StaysPut(ParseId(g, c, input, pos, 1), pos);
      if fuel - 1 > 0 {
        var a := ParseId(g, c, input, pos, fuel - 1);
        assert StaysPut(a, pos);
        ZeroWidthRepeatNeverEnds(g, c, min, input, pos, acc + [a.result.value], fuel - 1);
      }
    }
  }

  /** `success().many()`, and `success().atLeast(n)`, never finish, on any input and at any fuel. */
  lemma ManySuccessNeverEnds(g: Grammar, min: nat, input: string, pos: nat, fuel: nat)
    requires Canonical(g)
    ensures ParseNode(g, Times(SuccessId, min, Infinity), input, pos, fuel) == OutOfFuel
  {
    forall f: nat | 0 < f
      ensures StaysPut(ParseId(g, SuccessId, input, pos, f), pos)
    {
    }
    if fuel > 0 {
      ZeroWidthRepeatNeverEnds(g, SuccessId, min, input, pos, [], fuel - 1);
    }
  }

  /** A mapping keeps the child's status and position and replaces only a success's value. */
  lemma MappingLaw(g: Grammar, c: NodeId, m: Mapper, input: string, pos: nat, fuel: nat)
    ensures var a := ParseId(g, c, input, pos, fuel);
      var r := ParseNode(g, Mapping(c, m), input, pos, fuel + 1);
      && (a.Done? && !a.result.status ==> r == a)
      && (a.Done? && a.result.status && ApplyMapper(g.env, m, a.result.value).Ok? ==>
            r == Done(Reply(true, ApplyMapper(g.env, m, a.result.value).value, a.result.position)))
      && (r.Done? ==> a.Done? && r.result.status == a.result.status && r.result.position == a.result.position)
  {
  }

  /** Parsing a lazy reference is parsing the node it resolves to. */
  lemma LazyTransparent(g: Grammar, t: NodeId, input: string, pos: nat, fuel: nat)
    ensures ParseNode(g, Lazy(t), input, pos, fuel + 1) == ParseId(g, t, input, pos, fuel)
  {
  }

  /**
   * The cache and the parser together: however often a fresh lazy parser is resolved, each
   * resolution parses exactly as the lazy node over the thunk's first result does.
   */
  lemma ResolvedLazyParses(g: Grammar, thunk: Thunk, k: nat, input: string, pos: nat, fuel: nat)
    requires k >= 1
    ensures var r := ResolveTimes(Unresolved, thunk, k);
      forall i :: 0 <= i < k ==>
        ParseId(g, r.targets[i], input, pos, fuel) == ParseNode(g, Lazy(thunk(0)), input, pos, fuel + 1)
  {
    ResolveAtMostOnce(thunk, k);
  }

  /** Lookbehind is an implementation error, not a parse failure. */
  lemma LookbehindRaises(g: Grammar, c: NodeId, kind: LookKind, input: string, pos: nat, fuel: nat)
    requires kind.IsBehind()
    ensures ParseNode(g, Lookaround(c, kind), input, pos, fuel + 1) == Raised(LookbehindMessage)
  {
  }

  /**
   * A lookahead succeeds iff the child's status matches its polarity, always answers at its
   * start position (consuming nothing), and a success carries the empty string.
   */
  lemma LookaheadLaw(g: Grammar, c: NodeId, kind: LookKind, input: string, pos: nat, fuel: nat)
    requires !kind.IsBehind()
    requires ParseId(g, c, input, pos, fuel).Done?
    ensures var a := ParseId(g, c, input, pos, fuel).result;
      var r := ParseNode(g, Lookaround(c, kind), input, pos, fuel + 1);
      && r.Done?
      && r.result.position == pos
      && (kind == PositiveAhead ==> (r.result.status <==> a.status))
      && (kind == NegativeAhead ==> (r.result.status <==> !a.status))
      && (r.result.status ==> r.result.value == Str(""))
  {
  }

  /** A chain whose child fails answers with that failure and never consults its continuation. */
  lemma ChainChildFails(g: Grammar, c: NodeId, k: Continuation, input: string, pos: nat, fuel: nat)
    requires ParseId(g, c, input, pos, fuel).Done? && !ParseId(g, c, input, pos, fuel).result.status
    ensures ParseNode(g, Chained(c, k), input, pos, fuel + 1) == ParseId(g, c, input, pos, fuel)
  {
  }

  /**
   * A chain whose child succeeds hands (value, input, end) to its continuation and parses the
   * grammar it returns from the child's end; no grammar means failure at the child's end.
   */
  lemma ChainContinues(g: Grammar, c: NodeId, k: Continuation, input: string, pos: nat, fuel: nat)
    requires ParseId(g, c, input, pos, fuel).Done? && ParseId(g, c, input, pos, fuel).result.status
    ensures var a := ParseId(g, c, input, pos, fuel).result;
      var r := ParseNode(g, Chained(c, k), input, pos, fuel + 1);
      match Continue(g, k, a.value, input, a.position)
      case None => r == Done(MakeFailure(a.position))
      case Some(next) => r == ParseNode(g, next, input, a.position, fuel)
  {
  }

  /** A literal whose text is next in the input reads it and yields it. */
  lemma LiteralReads(g: Grammar, id: NodeId, text: string, input: string, pos: nat, fuel: nat)
    requires id < |g.nodes| && g.nodes[id] == Literal(text)
    requires pos + |text| <= |input| && input[pos..pos + |text|] == text
    ensures ParseId(g, id, input, pos, fuel + 1) == Done(MakeSuccess(pos + |text|, Str(text)))
  {
  }

  /** An empty literal, and the success parser, succeed everywhere without consuming input. */
  lemma EmptyLiteralSucceeds(g: Grammar, n: Node, input: string, pos: nat, fuel: nat)
    requires n == Literal("") || n == Success
    ensures ParseNode(g, n, input, pos, fuel + 1) == Done(MakeSuccess(pos, Str("")))
  {
  }

  /** Run on a literal accepts exactly its own text: no prefix, suffix, case change or repetition. */
  lemma LiteralRunExact(g: Grammar, root: NodeId, text: string, input: string, fuel: nat)
    requires root < |g.nodes| && g.nodes[root] == Literal(text)
    ensures var r := Run(g, root, input, fuel + 1);
      && r.Done?
      && (r.result.status <==> input == text)
      && (r.result.status ==> r.result.value == Str(text))
  {
    var a := LiteralParse(text, input, 0);
    assert ParseId(g, root, input, 0, fuel + 1) == Done(a);
    if a.status && a.position == |input| {
      if text != "" {
        assert input[0..|text|] == text;
        assert input[0..|input|] == input;
      }
    }
  }

  /** A pattern consumes exactly the text its anchored expression matched. */
  lemma PatternConsumesMatch(env: Env, rx: nat, group: int, input: string, pos: nat)
    requires Anchored(env) && pos <= |input|
    ensures var r := PatternParse(env, rx, group, input, pos);
      match env.regexExec(rx)(input[pos..])
      case None => r == MakeFailure(pos)
      case Some(m) =>
        && r.status
        && r.position <= |input|
        && input[pos..r.position] == m.whole
        && (group == 0 ==> r.value == Str(m.whole))
  {
    assert Substring(input, pos, |input|) == input[pos..];
    match env.regexExec(rx)(input[pos..])
    case None =>
    case Some(m) =>
      assert m.whole <= input[pos..];
      assert input[pos..pos + |m.whole|] == input[pos..][..|m.whole|];
  }
}

=== FILE: lazy_cells.dfy ===
/**
 * The lazy parser's resolve-once cache. The thunk may build a fresh grammar on every call, so
 * it is modelled as the sequence of results its successive calls would return; the cell
 * counts the calls made so far and remembers the first result.
 */
module LazyCells {
  import opened Wrappers
  import opened Nodes

  /** `thunk(k)` is the node the `k`-th call of the thunk returns. */
  type Thunk = nat -> NodeId

  datatype LazyCell = LazyCell(calls: nat, cache: Option<NodeId>)

  const Unresolved: LazyCell := LazyCell(0, None)

  datatype Resolution = Resolution(target: NodeId, cell: LazyCell)

  /** `resolve()`: call the thunk only when nothing is cached. */
  function Resolve(c: LazyCell, thunk: Thunk): (r: Resolution)
    ensures r.cell.cache == Some(r.target)
    ensures r.cell.calls <= c.calls + 1
  {
    match c.cache
    case Some(t) => Resolution(t, c)
    case None =>
      var t := thunk(c.calls);
      Resolution(t, LazyCell(c.calls + 1, Some(t)))
  }

  datatype Resolutions = Resolutions(targets: seq<NodeId>, cell: LazyCell)

  /** `k` successive resolutions of the same cell. */
  function ResolveTimes(c: LazyCell, thunk: Thunk, k: nat): (r: Resolutions)
    ensures |r.targets| == k
    decreases k
  {
    if k == 0 then Resolutions([], c)
    else
      var first := Resolve(c, thunk);
      var rest := ResolveTimes(first.cell, thunk, k - 1);
      Resolutions([first.target] + rest.targets, rest.cell)
  }

  /** Once a target is cached, resolving again never calls the thunk and always yields it. */
  lemma {:induction false} CachedStaysPut(c: LazyCell, thunk: Thunk, k: nat)
    requires c.cache.Some?
    ensures var r := ResolveTimes(c, thunk, k);
      && r.cell == c
      && forall i :: 0 <= i < k ==> r.targets[i] == c.cache.value
  {
    if k > 0 {
      CachedStaysPut(c, thunk, k - 1);
    }
  }

  /**
   * However often a fresh lazy node is resolved, its thunk runs exactly once, and every
   * resolution yields the first call's result: parsing or printing through the cache is
   * parsing or printing that one node.
   */
  lemma ResolveAtMostOnce(thunk: Thunk, k: nat)
    requires k >= 1
    ensures var r := ResolveTimes(Unresolved, thunk, k);
      && r.cell.calls == 1
      && forall i :: 0 <= i < k ==> r.targets[i] == thunk(0)
  {
    var first := Resolve(Unresolved, thunk);
    CachedStaysPut(first.cell, thunk, k - 1);
  }

  /**
   * `wrap` on a lazy node calls the thunk once more, bypassing the cache, to learn which
   * builder class to rebuild with; the call's result is dropped and the cache is unchanged.
   * The new lazy node starts unresolved, with a thunk that always returns the new child.
   */
  function WrapLazy(c: LazyCell, child: NodeId): (r: (LazyCell, LazyCell, Thunk))
    ensures r.0.cache == c.cache && r.0.calls == c.calls + 1
    ensures r.1 == Unresolved && forall k: nat :: r.2(k) == child
  {
    (LazyCell(c.calls + 1, c.cache), Unresolved, (k: nat) => child)
  }
}

=== FILE: nodes.dfy ===
/**
 * The node algebra: one variant per parser class, with children referred to by their index in
 * the grammar's node arena. `Unwrap` and `Wrap` are the generic child enumeration and
 * rebuild-with-new-children operations every class implements.
 */
module Nodes {
  import opened Wrappers
  import opened Values

  /** Index of a node in the grammar arena; it plays the role of object identity. */
  type NodeId = nat

  /** A repetition's upper bound: a count or `Number.POSITIVE_INFINITY`. */
  datatype Bound = Finite(n: nat) | Infinity

  /** `i < max` for a repetition counter `i`. */
  predicate Below(i: nat, max: Bound) {
    max.Infinity? || i < max.n
  }

  /** The four assertion kinds of a lookaround parser. */
  datatype LookKind = PositiveAhead | NegativeAhead | PositiveBehind | NegativeBehind {
    predicate IsBehind() {
      PositiveBehind? || NegativeBehind?
    }
  }

  /**
   * The transform of a mapping node: the built-in functions the combinators install
   * (first element, second element, array flattening, joining, the constant function of
   * `assert`) or a caller's function, named by an index into the grammar's environment.
   */
  datatype Mapper = FirstElement | SecondElement | Flatten | Joiner | Constant(v: Value) | UserMapper(id: nat)

  /** The continuation of a chained node: the one `assert` builds, or a caller's function. */
  datatype Continuation = AssertThat(test: nat) | UserContinuation(id: nat)

  datatype Node =
    | Literal(text: string)
    | Success
    | Failure
    | Pattern(regex: nat, group: int)
    | Sequence(items: seq<NodeId>)
    | Alternative(items: seq<NodeId>)
    | Times(child: NodeId, min: nat, max: Bound)
    | Mapping(child: NodeId, mapper: Mapper)
    | Chained(child: NodeId, continuation: Continuation)
    | Lookaround(child: NodeId, kind: LookKind)
    | Lazy(target: NodeId)
  {
    /** Classes that keep the base `unwrap`/`wrap`: no children, and `wrap` yields `null`. */
    predicate IsLeaf() {
      Literal? || Success? || Failure? || Pattern?
    }

    /** Classes whose `wrap` takes all its arguments as children. */
    predicate IsList() {
      Sequence? || Alternative?
    }

    /** Classes that inherit from the literal parser: the success parser is a literal `""`. */
    predicate IsStringParser() {
      Literal? || Success?
    }
  }

  /** The success parser's strict `equals`: true exactly for success parsers. */
  predicate StrictlyEqualsSuccess(other: Node) {
    other.Success?
  }

  /** The children of a node, in order (`unwrap`). A lazy node's child is its resolved target. */
  function Unwrap(n: Node): (r: seq<NodeId>)
    ensures n.IsLeaf() ==> r == []
    ensures n.IsList() ==> r == n.items
    ensures !n.IsLeaf() && !n.IsList() ==> |r| == 1
  {
    match n
    case Sequence(items) => items
    case Alternative(items) => items
    case Times(c, _, _) => [c]
    case Mapping(c, _) => [c]
    case Chained(c, _) => [c]
    case Lookaround(c, _) => [c]
    case Lazy(t) => [t]
    case _ => []
  }

  /** A node's own data with every child reference erased: what `wrap` must keep. */
  function Shape(n: Node): Node {
    match n
    case Sequence(_) => Sequence([])
    case Alternative(_) => Alternative([])
    case Times(_, min, max) => Times(0, min, max)
    case Mapping(_, m) => Mapping(0, m)
    case Chained(_, k) => Chained(0, k)
    case Lookaround(_, kind) => Lookaround(0, kind)
    case Lazy(_) => Lazy(0)
    case _ => n
  }

  /**
   * `wrap(...children)`: the same kind of node with its own data kept and its children
   * replaced. Single-child kinds take the first argument; leaves return `null`.
   */
  function Wrap(n: Node, children: seq<NodeId>): (r: Option<Node>)
    requires !n.IsLeaf() && !n.IsList() ==> |children| >= 1
    ensures r.None? <==> n.IsLeaf()
    ensures r.Some? ==> Shape(r.value) == Shape(n)
    ensures r.Some? && n.IsList() ==> Unwrap(r.value) == children
    ensures r.Some? && !n.IsList() ==> Unwrap(r.value) == [children[0]]
  {
    match n
    case Sequence(_) => Some(Sequence(children))
    case Alternative(_) => Some(Alternative(children))
    case Times(_, min, max) => Some(Times(children[0], min, max))
    case Mapping(_, m) => Some(Mapping(children[0], m))
    case Chained(_, k) => Some(Chained(children[0], k))
    case Lookaround(_, kind) => Some(Lookaround(children[0], kind))
    case Lazy(_) => Some(Lazy(children[0]))
    case _ => None
  }

  /** A node is determined by its own data and its children. */
  lemma ShapeAndChildrenDetermineNode(n: Node, m: Node)
    ensures n == m <==> Shape(n) == Shape(m) && Unwrap(n) == Unwrap(m)
  {
  }

  /** Rebuilding a node from its own children gives the node back. */
  lemma WrapUnwrap(n: Node)
    requires !n.IsLeaf()
    ensures Wrap(n, Unwrap(n)) == Some(n)
  {
    ShapeAndChildrenDetermineNode(Wrap(n, Unwrap(n)).value, n);
  }
}

=== FILE: parsing.dfy ===
/**
 * How each node consumes input: `parse(context, position)` for every parser class, the
 * top-level `run` and `parse` of the builder. Recursion through lazy references and chain
 * continuations is unbounded in the source, so every call carries fuel: one unit per node
 * visited and one per repetition round.
 */
module Parsing {
  import opened Wrappers
  import opened Text
  import opened Values
  import opened Replies
  import opened Nodes
  import opened Grammars

  function Clamp(k: nat, len: nat): nat {
    if k < len then k else len
  }

  /** `s.substring(a, b)`: both ends clamped to the string, swapped when out of order. */
  function Substring(s: string, a: nat, b: nat): string {
    var x := Clamp(a, |s|);
    var y := Clamp(b, |s|);
    if x <= y then s[x..y] else s[y..x]
  }

  /**
   * A literal compares the input slice of its own length with its text. It fails at the start
   * position whatever the mismatch, and a short input is no special case: the slice is
   * truncated and simply differs.
   */
  function LiteralParse(text: string, input: string, pos: nat): (r: Reply)
    ensures r.status <==> text == "" || (pos + |text| <= |input| && input[pos..pos + |text|] == text)
    ensures r.status ==> r.position == pos + |text| && r.value == Str(text)
    ensures !r.status ==> r == MakeFailure(pos)
  {
    var end := pos + |text|;
    if Substring(input, pos, end) == text then MakeSuccess(end, Str(text)) else MakeFailure(pos)
  }

  /** `match[k]` of an exec array: the whole match, a capture, or `undefined` past the end. */
  function MatchGroup(m: RegexMatch, k: nat): Value {
    if k == 0 then Str(m.whole) else if k <= |m.captures| then m.captures[k - 1] else Undefined
  }

  /** The anchored expression runs on `input.substring(pos)`; the value is the selected group,
      or the whole exec array when the group selector is negative. */
  function PatternParse(env: Env, rx: nat, group: int, input: string, pos: nat): (r: Reply)
    ensures var m := env.regexExec(rx)(Substring(input, pos, |input|));
      && (r.status <==> m.Some?)
      && (!r.status ==> r == MakeFailure(pos))
      && (r.status ==> r.position == pos + |m.value.whole|)
      && (r.status && group == 0 ==> r.value == Str(m.value.whole))
      && (r.status && group < 0 ==> r.value.Arr? && |r.value.items| == 1 + |m.value.captures|)
  {
    match env.regexExec(rx)(Substring(input, pos, |input|))
    case None => MakeFailure(pos)
    case Some(m) =>
      MakeSuccess(pos + |m.whole|, if group >= 0 then MatchGroup(m, group) else Arr([Str(m.whole)] + m.captures))
  }

  /** Array destructuring `[a, b] = v`: strings and arrays are iterable, anything else throws. */
  function Element(v: Value, k: nat): Result<Value> {
    match v
    case Arr(xs) => Ok(if k < |xs| then xs[k] else Undefined)
    case Str(s) => Ok(if k < |s| then Str([s[k]]) else Undefined)
    case _ => Err(NotIterableMessage)
  }

  /** Spreading `...v` into an array. */
  function Spread(v: Value): Result<seq<Value>> {
    match v
    case Arr(xs) => Ok(xs)
    case Str(s) => Ok(seq(|s|, i requires 0 <= i < |s| => Str([s[i]])))
    case _ => Err(NotIterableMessage)
  }

  function ApplyMapper(env: Env, m: Mapper, v: Value): (r: Result<Value>)
    ensures r.Err? ==> r.message == NotIterableMessage
    ensures m.Joiner? || m.Constant? || m.UserMapper? ==> r.Ok?
    ensures m.FirstElement? || m.SecondElement? ==> (r.Ok? <==> v.Arr? || v.Str?)
    ensures m.Flatten? && r.Ok? ==> r.value.Arr? && |r.value.items| >= 1
    ensures m.Joiner? && !v.Arr? ==> r == Ok(v)
    ensures m.Constant? ==> r == Ok(m.v)
  {
    match m
    case FirstElement => Element(v, 0)
    case SecondElement => Element(v, 1)
    case Flatten =>
      (match (Element(v, 0), Element(v, 1))
       case (Ok(first), Ok(rest)) =>
         (match Spread(rest)
          case Ok(xs) => Ok(Arr([first] + xs))
          case Err(e) => Err(e))
       case (Err(e), _) => Err(e)
       case (_, Err(e)) => Err(e))
    case Joiner => Ok(if v.Arr? then Str(JoinItems(v.items, "")) else v)
    case Constant(c) => Ok(c)
    case UserMapper(id) => Ok(env.mappers(id)(v))
  }

  /** A mapping node replaces the value of a success and passes everything else through. */
  function MapReply(env: Env, m: Mapper, a: Attempt<Reply>): Attempt<Reply> {
    if a.Done? && a.result.status then
      match ApplyMapper(env, m, a.result.value)
      case Ok(v) => Done(Reply(true, v, a.result.position))
      case Err(e) => Raised(e)
    else a
  }

  /** A lookahead's verdict: the child's status compared with the assertion's polarity. */
  function LookReply(kind: LookKind, pos: nat, a: Attempt<Reply>): Attempt<Reply> {
    if a.Done? then
      if a.result.status == (kind == PositiveAhead) then Done(MakeSuccess(pos, Str(""))) else Done(MakeFailure(pos))
    else a
  }

  /** The grammar a chain continuation returns for `(value, input, end)`. `assert` returns
      `success().map(() => value)` or `failure()`. */
  function Continue(g: Grammar, k: Continuation, v: Value, input: string, end: nat): Option<Node> {
    match k
    case AssertThat(p) =>
      if g.env.predicates(p)(v, input, end) then Some(Mapping(SuccessId, Constant(v))) else Some(Failure)
    case UserContinuation(id) => g.env.continuations(id)(v, input, end)
  }

  /** `parse` on the node stored under `id`. */
  function ParseId(g: Grammar, id: NodeId, input: string, pos: nat, fuel: nat): (r: Attempt<Reply>)
    ensures r.Raised? ==> EngineError(r.message)
    decreases fuel, 1, 0
  {
    if id < |g.nodes| then ParseNode(g, g.nodes[id], input, pos, fuel) else Raised(UndefinedParserMessage)
  }

  function ParseNode(g: Grammar, n: Node, input: string, pos: nat, fuel: nat): (r: Attempt<Reply>)
    ensures r.Raised? ==> EngineError(r.message)
    decreases fuel, 0, 0
  {
    if fuel == 0 then OutOfFuel
    else match n
      case Literal(t) => Done(LiteralParse(t, input, pos))
      case Success => Done(LiteralParse("", input, pos))
      case Failure => Done(MakeFailure(pos))
      case Pattern(rx, group) => Done(PatternParse(g.env, rx, group, input, pos))
      case Sequence(items) => SeqLoop(g, items, 0, input, pos, [], fuel - 1)
      case Alternative(items) => AltLoop(g, items, 0, input, pos, fuel - 1)
      case Times(c, min, max) => TimesLoop(g, c, min, max, input, pos, [], fuel - 1)
      case Mapping(c, m) => MapReply(g.env, m, ParseId(g, c, input, pos, fuel - 1))
      case Chained(c, k) =>
        var a := ParseId(g, c, input, pos, fuel - 1);
        if !a.Done? || !a.result.status then a
        else (match Continue(g, k, a.result.value, input, a.result.position)
              case None => Done(MakeFailure(a.result.position))
              case Some(next) => ParseNode(g, next, input, a.result.position, fuel - 1))
      case Lookaround(c, kind) =>
        if kind.IsBehind() then Raised(LookbehindMessage)
        else LookReply(kind, pos, ParseId(g, c, input, pos, fuel - 1))
      case Lazy(t) => ParseId(g, t, input, pos, fuel - 1)
  }

  /** Sequence: children left to right from the running position; the first failure is returned
      as it is; on success one value per child. */
  function SeqLoop(g: Grammar, items: seq<NodeId>, i: nat, input: string, pos: nat, acc: seq<Value>, fuel: nat)
    : (r: Attempt<Reply>)
    requires i <= |items|
    ensures r.Done? && r.result.status ==>
      && r.result.value.Arr?
      && |r.result.value.items| == |acc| + |items| - i
      && r.result.value.items[..|acc|] == acc
    ensures r.Raised? ==> EngineError(r.message)
    decreases fuel, 2, |items| - i
  {
    if i == |items| then Done(MakeSuccess(pos, Arr(acc)))
    else
      var a := ParseId(g, items[i], input, pos, fuel);
      if !a.Done? || !a.result.status then a
      else SeqLoop(g, items, i + 1, input, a.result.position, acc + [a.result.value], fuel)
  }

  /** Alternative: the first succeeding child's reply verbatim, else failure at the start. */
  function AltLoop(g: Grammar, items: seq<NodeId>, i: nat, input: string, pos: nat, fuel: nat): (r: Attempt<Reply>)
    requires i <= |items|
    ensures r.Done? && !r.result.status ==> r.result == MakeFailure(pos)
    ensures r.Raised? ==> EngineError(r.message)
    decreases fuel, 2, |items| - i
  {
    if i == |items| then Done(MakeFailure(pos))
    else
      var a := ParseId(g, items[i], input, pos, fuel);
      if a.Done? && !a.result.status then AltLoop(g, items, i + 1, input, pos, fuel)
      else a
  }

  /** Repetition: up to `max` rounds, stopping at the first child failure, which is returned
      when fewer than `min` rounds succeeded. Each round costs one unit of fuel. */
  function TimesLoop(g: Grammar, child: NodeId, min: nat, max: Bound, input: string, pos: nat, acc: seq<Value>, fuel: nat)
    : (r: Attempt<Reply>)
    requires max.Finite? ==> |acc| <= max.n
    ensures r.Done? && r.result.status ==>
      && r.result.value.Arr?
      && |acc| <= |r.result.value.items|
      && r.result.value.items[..|acc|] == acc
      && (min <= |r.result.value.items| || (max.Finite? && |r.result.value.items| == max.n))
      && (max.Finite? ==> |r.result.value.items| <= max.n)
    ensures r.Done? && !r.result.status ==> |acc| < min
    ensures r.Raised? ==> EngineError(r.message)
    decreases fuel, 2, 0
  {
    if !Below(|acc|, max) then Done(MakeSuccess(pos, Arr(acc)))
    else if fuel == 0 then OutOfFuel
    else
      var a := ParseId(g, child, input, pos, fuel - 1);
      if !a.Done? then a
      else if !a.result.status then (if |acc| >= min then Done(MakeSuccess(pos, Arr(acc))) else a)
      else TimesLoop(g, child, min, max, input, a.result.position, acc + [a.result.value], fuel - 1)
  }

  /**
   * `run(input)`: the root parsed from position 0 succeeds only when it consumed the whole
   * input; otherwise the reply is a failure at the root's position.
   */
  function Run(g: Grammar, root: NodeId, input: string, fuel: nat): (r: Attempt<Reply>)
    ensures var a := ParseId(g, root, input, 0, fuel);
      && (r.Done? <==> a.Done?)
      && (!a.Done? ==> r == a)
      && (a.Done? ==> (r.result.status <==> a.result.status && a.result.position == |input|))
      && (a.Done? ==> r.result.position == a.result.position)
      && (r.Done? && r.result.status ==> r.result == a.result)
  {
    var a := ParseId(g, root, input, 0, fuel);
    if !a.Done? then a
    else if a.result.status && a.result.position == |input| then a
    else Done(MakeFailure(a.result.position))
  }

  /** `parse(input)`: the value of a successful run, or the "Parsing error" exception. */
  function ParseValue(g: Grammar, root: NodeId, input: string, fuel: nat): (r: Attempt<Value>)
    ensures var a := ParseId(g, root, input, 0, fuel);
      && (r.Done? <==> a.Done? && a.result.status && a.result.position == |input|)
      && (r.Done? ==> r.result == a.result.value)
      && (a.Done? && !r.Done? ==> r == Raised(ParsingErrorMessage))
  {
    match Run(g, root, input, fuel)
    case Done(o) => if o.status then Done(o.value) else Raised(ParsingErrorMessage)
    case Raised(e) => Raised(e)
    case OutOfFuel => OutOfFuel
  }
}

=== FILE: print_laws.dfy ===
/**
 * Properties of the printer: nodes printed earlier in the same call are elided; as the source
 * writes it the optional form never brackets its operand, while the intended rule brackets
 * exactly the operands that need it.
 */
module PrintLaws {
  import opened Wrappers
  import opened Text
  import opened Nodes
  import opened Grammars
  import opened Printing

  /** An item already printed earlier in the call prints as `<...>`. */
  lemma {:induction false} VisitedItemElided(g: Grammar, items: seq<NodeId>, i: nat, visited: set<NodeId>, indent: nat, rule: OptionalRule, k: nat)
    requires WellFormed(g) && ItemsBelow(g, items) && i <= k < |items|
    requires items[k] in visited
    ensures PrintItems(g, items, i, visited, indent, rule).texts[k - i] == Placeholder
    decreases k - i
  {
    if i < k {
      var x := Print(g, items[i], visited, indent, rule);
      VisitedItemElided(g, items, i + 1, x.visited, indent, rule, k);
    }
  }

  /**
   * A node listed twice in a sequence or alternative prints in full only at its first
   * occurrence: the printed set is shared by the whole call.
   */
  lemma {:induction false} RepeatedItemElided(g: Grammar, items: seq<NodeId>, i: nat, visited: set<NodeId>, indent: nat, rule: OptionalRule, j: nat, k: nat)
    requires WellFormed(g) && ItemsBelow(g, items) && i <= j < k < |items|
    requires items[j] == items[k]
    ensures PrintItems(g, items, i, visited, indent, rule).texts[k - i] == Placeholder
    decreases j - i
  {
    var x := Print(g, items[i], visited, indent, rule);
    if i == j {
      VisitedItemElided(g, items, i + 1, x.visited, indent, rule, k);
    } else {
      RepeatedItemElided(g, items, i + 1, x.visited, indent, rule, j, k);
    }
  }

  /** A node printed for the first time never prints as the placeholder, unless it is a lazy
      node forwarding to an already printed one. */
  lemma FreshNodeNotElided(g: Grammar, id: NodeId, visited: set<NodeId>, indent: nat, rule: OptionalRule)
    requires WellFormed(g) && id < |g.nodes|
    requires id !in visited && !g.nodes[id].Lazy?
    ensures Print(g, id, visited, indent, rule).text != Placeholder
  {
    var r := Print(g, id, visited, indent, rule);
    ChildrenBelow(g, id);
    match g.nodes[id]
    case Literal(t) =>
      if !(|t| == 1 && !IsJsWhitespace(t[0])) {
        assert r.text[0] == '"';
      }
    case Success =>
    case Failure =>
    case Pattern(_, _) => assert r.text[0] == '/';
    case Sequence(_) => assert r.text[0] == 'S';
    case Alternative(items) =>
      if |items| == 2 && g.nodes[items[1]].Success? {
        assert r.text[|r.text| - 1] == '?';
      } else {
        assert r.text[0] == 'A';
      }
    case Times(c, min, max) =>
      assert Unwrap(g.nodes[id])[0] == c;
      var x := Print(g, c, visited + {id}, indent, rule);
      var suffix := TimesSuffix(min, max);
      assert r.text == x.text + suffix;
      assert r.text[|r.text| - 1] == suffix[|suffix| - 1];
    case Mapping(c, _) => assert |r.text| >= 9;
    case Chained(c, _) => assert |r.text| >= 16;
    case Lookaround(c, _) => assert r.text[0] == '(';
  }

  /**
   * As the source prints it, `p.opt()` is `p` followed by `?` and never bracketed: the bracket
   * test consults the printed set after the operand was printed, which always put it there.
   */
  lemma OptionalFormAsWritten(g: Grammar, id: NodeId, visited: set<NodeId>, indent: nat)
    requires WellFormed(g) && id < |g.nodes| && id !in visited
    requires g.nodes[id].Alternative? && |g.nodes[id].items| == 2
    requires var items := g.nodes[id].items; items[1] < |g.nodes| && g.nodes[items[1]].Success?
    ensures var x := g.nodes[id].items[0];
      x < |g.nodes| &&
      Print(g, id, visited, indent, AsWritten).text == Print(g, x, visited + {id}, indent, AsWritten).text + "?"
  {
    ChildrenBelow(g, id);
  }

  /**
   * The intended optional form: `p.opt()` prints as `p` followed by `?`, with `p` between angle
   * brackets unless it is a literal (or the success parser) or was already printed in the call.
   */
  lemma OptionalForm(g: Grammar, id: NodeId, visited: set<NodeId>, indent: nat)
    requires WellFormed(g) && id < |g.nodes| && id !in visited
    requires g.nodes[id].Alternative? && |g.nodes[id].items| == 2
    requires var items := g.nodes[id].items; items[1] < |g.nodes| && g.nodes[items[1]].Success?
    ensures var x := g.nodes[id].items[0];
      x < |g.nodes| &&
      var operand := Print(g, x, visited + {id}, indent, Intended).text;
      var r := Print(g, id, visited, indent, Intended).text;
      && (g.nodes[x].IsStringParser() ==> r == operand + "?")
      && (x in visited + {id} ==> r == Placeholder + "?")
      && (!g.nodes[x].IsStringParser() && !g.nodes[x].Lazy? && x !in visited + {id} ==> r == "<" + operand + ">?")
  {
    ChildrenBelow(g, id);
    var x := g.nodes[id].items[0];
    if !g.nodes[x].Lazy? && x !in visited + {id} {
      FreshNodeNotElided(g, x, visited + {id}, indent, Intended);
    }
  }

  /** The bracket test as the source writes it can never succeed once the operand is printed. */
  lemma AsWrittenNeverBrackets(g: Grammar, x: NodeId, seen: set<NodeId>, indent: nat, rule: OptionalRule, isLiteral: bool)
    requires WellFormed(g) && x < |g.nodes|
    ensures var p := Print(g, x, seen, indent, rule);
      OptionalTextAsWritten(p.text, isLiteral, x in p.visited) == p.text + "?"
  {
  }

  /** `R.str("a").atLeast(1).opt()`: nodes 3 to 5 after the shared singletons. */
  function OptionalRepeatGrammar(env: Env): Grammar {
    Grammar([Success, Failure, Pattern(OptWhitespaceRegex, 0), Literal("a"), Times(3, 1, Infinity), Alternative([4, SuccessId])], env)
  }

  lemma OptionalRepeatWellFormed(env: Env)
    ensures WellFormed(OptionalRepeatGrammar(env))
  {
    var g := OptionalRepeatGrammar(env);
    forall i | 0 <= i < |g.nodes|
      ensures RefsBelow(g.nodes[i], |g.nodes|) && ValidBounds(g.nodes[i])
    {
    }
  }

  /**
   * For `R.str("a").atLeast(1).opt()` the source prints `a+?`, which reads as a lazy
   * quantifier, while the intended form is `<a+>?`.
   */
  lemma OptionalBracketsCounterexample(env: Env)
    ensures WellFormed(OptionalRepeatGrammar(env))
    ensures Print(OptionalRepeatGrammar(env), 5, {}, 0, AsWritten).text == "a+?"
    ensures Print(OptionalRepeatGrammar(env), 5, {}, 0, Intended).text == "<a+>?"
  {
    OptionalRepeatWellFormed(env);
    var g := OptionalRepeatGrammar(env);
    assert {} + {5} == {5};
    forall rule: OptionalRule
      ensures Print(g, 4, {5}, 0, rule).text == "a+"
    {
      assert Print(g, 3, {5, 4}, 0, rule).text == "a" by {
        assert !IsJsWhitespace('a');
        assert LiteralText("a") == "a";
      }
      assert TimesSuffix(1, Infinity) == "+";
    }
    OptionalFormAsWritten(g, 5, {}, 0);
    OptionalForm(g, 5, {}, 0);
  }
}

=== FILE: printing.dfy ===
/**
 * The grammar printer (`toString`): every node kind's text, with four spaces of indentation per
 * level, `<...>` for a node already printed in the same call, and the short forms of the
 * repetition counts. The set of printed nodes is threaded through the whole call and never
 * cleared, so a node shared by two branches prints in full only the first time.
 */
module Printing {
  import opened Wrappers
  import opened Text
  import opened Values
  import opened Nodes
  import opened Grammars

  const Indentation: string := "    "
  const Placeholder: string := "<...>"
  const ElidedMapper: string := "(...) => { ... }"
  const MaxMapperText: nat := 60

  function Indent(k: nat): (r: string)
    ensures |r| == 4 * k
    ensures forall i :: 0 <= i < |r| ==> r[i] == ' '
  {
    if k == 0 then "" else Indent(k - 1) + Indentation
  }

  // ---------------------------------------------------------------- literals

  /** Newlines become `\n`, then double quotes become `\"`. */
  function Escape(t: string): string {
    ReplaceChar(ReplaceChar(t, '\n', "\\n"), '"', "\\\"")
  }

  /** The same escaping one character at a time. */
  function EscapeChar(c: char): string {
    if c == '\n' then "\\n" else if c == '"' then "\\\"" else [c]
  }

  function EscapeEach(t: string): string {
    if |t| == 0 then "" else EscapeChar(t[0]) + EscapeEach(t[1..])
  }

  /**
   * A literal prints bare when it is a single character that trimming leaves alone, and
   * otherwise between double quotes with its newlines and quotes escaped.
   */
  function LiteralText(t: string): (r: string)
    ensures |t| == 1 && !IsJsWhitespace(t[0]) ==> r == t
    ensures !(|t| == 1 && !IsJsWhitespace(t[0])) ==> r == "\"" + Escape(t) + "\""
  {
    var inlined := ReplaceChar(t, '\n', "\\n");
    if |t| != 1 || IsJsWhitespace(t[0]) then "\"" + ReplaceChar(inlined, '"', "\\\"") + "\""
    else
      assert inlined == t by { assert ReplaceChar(t[1..], '\n', "\\n") == ""; }
      inlined
  }

  /** Reading an escaped literal back: `\n` and `\"` stand for a newline and a quote. */
  function Unescape(s: string): string {
    if |s| >= 2 && s[0] == '\\' && s[1] == 'n' then "\n" + Unescape(s[2..])
    else if |s| >= 2 && s[0] == '\\' && s[1] == '"' then "\"" + Unescape(s[2..])
    else if |s| == 0 then ""
    else [s[0]] + Unescape(s[1..])
  }

  lemma {:induction false} ReplaceCharAppend(a: string, b: string, c: char, rep: string)
    ensures ReplaceChar(a + b, c, rep) == ReplaceChar(a, c, rep) + ReplaceChar(b, c, rep)
  {
    if |a| > 0 {
      assert (a + b)[1..] == a[1..] + b;
      ReplaceCharAppend(a[1..], b, c, rep);
    } else {
      assert a + b == b;
    }
  }

  lemma {:induction false} EscapeIsEscapeEach(t: string)
    ensures Escape(t) == EscapeEach(t)
  {
    if |t| > 0 {
      var head := if t[0] == '\n' then "\\n" else [t[0]];
      assert ReplaceChar(t, '\n', "\\n") == head + ReplaceChar(t[1..], '\n', "\\n");
      ReplaceCharAppend(head, ReplaceChar(t[1..], '\n', "\\n"), '"', "\\\"");
      if t[0] == '\n' {
        assert ReplaceChar(head, '"', "\\\"") == "\\n" by {
          assert ReplaceChar(head[1..], '"', "\\\"") == "n" by {
            assert head[1..][1..] == "";
          }
        }
      } else {
        assert ReplaceChar(head, '"', "\\\"") == EscapeChar(t[0]) by {
          assert head[1..] == "";
        }
      }
      EscapeIsEscapeEach(t[1..]);
    }
  }

  lemma {:induction false} UnescapeEscapeEach(t: string)
    requires '\\' !in t
    ensures Unescape(EscapeEach(t)) == t
  {
    if |t| > 0 {
      assert '\\' !in t[1..] by { assert forall i :: 0 <= i < |t[1..]| ==> t[1..][i] == t[i + 1]; }
      UnescapeEscapeEach(t[1..]);
      UnescapeEscapedChar(t[0], EscapeEach(t[1..]));
      assert t == [t[0]] + t[1..];
    }
  }

  /** One escaped character, other than a backslash, reads back as itself. */
  lemma UnescapeEscapedChar(c: char, rest: string)
    requires c != '\\'
    ensures Unescape(EscapeChar(c) + rest) == [c] + Unescape(rest)
  {
    var e := EscapeChar(c) + rest;
    if c == '\n' || c == '"' {
      assert e[2..] == rest;
    } else {
      assert e[1..] == rest;
    }
  }

  /**
   * A quoted literal reads back as the literal it was printed from, as long as the literal has
   * no backslash (a backslash is printed as itself, so `\n` in the text and a newline print
   * alike).
   */
  lemma LiteralTextRoundTrip(t: string)
    requires '\\' !in t
    ensures var r := LiteralText(t);
      if |t| == 1 && !IsJsWhitespace(t[0]) then r == t
      else |r| >= 2 && r[0] == '"' && r[|r| - 1] == '"' && Unescape(r[1..|r| - 1]) == t
  {
    EscapeIsEscapeEach(t);
    UnescapeEscapeEach(t);
    var r := LiteralText(t);
    if !(|t| == 1 && !IsJsWhitespace(t[0])) {
      assert r[1..|r| - 1] == Escape(t);
    }
  }

  /** An escaped backslash-free literal never contains a raw newline: a literal prints on one line. */
  lemma {:induction false} EscapeEachHasNoNewline(t: string)
    ensures '\n' !in EscapeEach(t)
  {
    if |t| > 0 {
      EscapeEachHasNoNewline(t[1..]);
    }
  }

  // ---------------------------------------------------------------- repetition counts

  function BoundText(b: Bound): string {
    match b
    case Finite(n) => NatToString(n)
    case Infinity => "Infinity"
  }

  /** `?`, `*`, `+`, or `{min}` / `{min,max}` with `Infinity` for no upper bound. */
  function TimesSuffix(min: nat, max: Bound): (r: string)
    ensures |r| >= 1 && r[|r| - 1] in "?*+}"
  {
    if min == 0 && max == Finite(1) then "?"
    else if min == 0 && max == Infinity then "*"
    else if min == 1 && max == Infinity then "+"
    else "{" + NatToString(min) + (if max != Finite(min) then "," + BoundText(max) else "") + "}"
  }

  predicate AllDigits(s: string) {
    forall i :: 0 <= i < |s| ==> IsDigit(s[i])
  }

  datatype Bounds = Bounds(min: nat, max: Bound)

  /** Reads a repetition suffix back into its bounds. */
  function DecodeSuffix(s: string): Option<Bounds> {
    if s == "?" then Some(Bounds(0, Finite(1)))
    else if s == "*" then Some(Bounds(0, Infinity))
    else if s == "+" then Some(Bounds(1, Infinity))
    else if |s| < 2 || s[0] != '{' || s[|s| - 1] != '}' then None
    else DecodeBraced(s[1..|s| - 1])
  }

  /** The text between the braces: `min` or `min,max`. */
  function DecodeBraced(inner: string): Option<Bounds> {
    var k := IndexOf(inner, ',');
    var left := inner[..k];
    if left == "" || !AllDigits(left) then None
    else if k == |inner| then Some(Bounds(ParseNat(left), Finite(ParseNat(left))))
    else match DecodeBound(inner[k + 1..])
      case Some(max) => Some(Bounds(ParseNat(left), max))
      case None => None
  }

  function DecodeBound(s: string): Option<Bound> {
    if s == "Infinity" then Some(Infinity)
    else if s != "" && AllDigits(s) then Some(Finite(ParseNat(s)))
    else None
  }

  lemma BoundRoundTrip(b: Bound)
    ensures DecodeBound(BoundText(b)) == Some(b)
  {
    if b.Finite? {
      NatRoundTrip(b.n);
      assert BoundText(b)[0] != 'I';
    }
  }

  lemma {:induction false} CommaAfterDigits(digits: string, tail: string)
    requires AllDigits(digits)
    requires tail == "" || tail[0] == ','
    ensures IndexOf(digits + tail, ',') == |digits|
  {
    if |digits| > 0 {
      assert (digits + tail)[1..] == digits[1..] + tail;
      CommaAfterDigits(digits[1..], tail);
    } else {
      assert digits + tail == tail;
    }
  }

  lemma BracedRoundTrip(digits: string, tail: string, min: nat, max: Bound)
    requires digits == NatToString(min)
    requires tail == "" ==> max == Finite(min)
    requires tail != "" ==> tail == "," + BoundText(max)
    ensures DecodeBraced(digits + tail) == Some(Bounds(min, max))
  {
    BracedSplit(digits, tail);
    NatRoundTrip(min);
    if tail != "" {
      BoundRoundTrip(max);
    }
  }

  /** The inner text splits at the first comma into the digits and the bound after it. */
  lemma BracedSplit(digits: string, tail: string)
    requires |digits| >= 1 && AllDigits(digits)
    requires tail == "" || tail[0] == ','
    ensures var inner := digits + tail;
      && IndexOf(inner, ',') == |digits|
      && inner[..|digits|] == digits
      && (tail != "" ==> inner[|digits| + 1..] == tail[1..])
  {
    var inner := digits + tail;
    CommaAfterDigits(digits, tail);
    assert inner[..|digits|] == digits;
    if tail != "" {
      assert inner[|digits| + 1..] == tail[1..];
    }
  }

  /** The suffix determines the bounds: two repetitions print alike only if their bounds agree. */
  lemma SuffixRoundTrip(min: nat, max: Bound)
    ensures DecodeSuffix(TimesSuffix(min, max)) == Some(Bounds(min, max))
  {
    var s := TimesSuffix(min, max);
    if !(min == 0 && max == Finite(1)) && !(min == 0 && max == Infinity) && !(min == 1 && max == Infinity) {
      var digits := NatToString(min);
      var tail := if max != Finite(min) then "," + BoundText(max) else "";
      assert s == "{" + digits + tail + "}";
      BracedSuffixDecodes(digits, tail, min, max);
    }
  }

  /** A braced suffix is read back through its inner text. */
  lemma BracedSuffixDecodes(digits: string, tail: string, min: nat, max: Bound)
    requires digits == NatToString(min)
    requires tail == "" ==> max == Finite(min)
    requires tail != "" ==> tail == "," + BoundText(max)
    ensures DecodeSuffix("{" + digits + tail + "}") == Some(Bounds(min, max))
  {
    var s := "{" + digits + tail + "}";
    assert s[0] == '{' && s[|s| - 1] == '}';
    assert s[1..|s| - 1] == digits + tail;
    BracedRoundTrip(digits, tail, min, max);
  }

  lemma TimesSuffixInjective(min1: nat, max1: Bound, min2: nat, max2: Bound)
    ensures TimesSuffix(min1, max1) == TimesSuffix(min2, max2) <==> min1 == min2 && max1 == max2
  {
    SuffixRoundTrip(min1, max1);
    SuffixRoundTrip(min2, max2);
  }

  // ---------------------------------------------------------------- other node texts

  /** The marker between the lookaround's parenthesis and its operand, as in regular expressions. */
  function Marker(k: LookKind): (r: string)
    ensures |r| >= 2 && r[0] == '?'
  {
    match k
    case PositiveAhead => "?="
    case NegativeAhead => "?!"
    case PositiveBehind => "?<="
    case NegativeBehind => "?<!"
  }

  lemma MarkerInjective(k1: LookKind, k2: LookKind)
    ensures Marker(k1) == Marker(k2) <==> k1 == k2
  {
  }

  /** The source text of a mapper function; the built-ins are the library's own arrow functions. */
  function MapperSource(env: Env, m: Mapper): string {
    match m
    case FirstElement => "([v, _]) => v"
    case SecondElement => "([_, v]) => v"
    case Flatten => "([first, rest]) => [first, ...rest]"
    case Joiner => "v =>\n        v instanceof Array\n            ? v.join(\"\")\n            : v"
    case Constant(_) => "() => v"
    case UserMapper(id) => env.mapperSource(id)
  }

  /** A mapper prints as its source when that is short and on one line, and elided otherwise. */
  function MapperText(src: string): (r: string)
    ensures r == src || r == ElidedMapper
    ensures |r| <= MaxMapperText && '\n' !in r
    ensures |src| <= MaxMapperText && '\n' !in src ==> r == src
  {
    if |src| > MaxMapperText || '\n' in src then ElidedMapper else src
  }

  // ---------------------------------------------------------------- the optional form

  /**
   * The intended optional form: `<X>?` for an optional `X`, except that a literal operand needs
   * no brackets and neither does an operand already printed as `<...>`.
   */
  function OptionalText(operand: string, operandIsLiteral: bool): (r: string)
    ensures |r| >= 1 && r[|r| - 1] == '?'
    ensures !operandIsLiteral && operand != Placeholder <==> r == "<" + operand + ">?"
  {
    (if !operandIsLiteral && operand != Placeholder then "<" + operand + ">" else operand) + "?"
  }

  /**
   * The optional form exactly as the source decides it: brackets unless the operand is a
   * literal or is in the printed set, where the set is consulted after the operand was printed.
   */
  function OptionalTextAsWritten(operand: string, operandIsLiteral: bool, operandPrinted: bool): (r: string)
    ensures |r| >= 1 && r[|r| - 1] == '?'
    ensures operandIsLiteral || operandPrinted ==> r == operand + "?"
    ensures !operandIsLiteral && !operandPrinted <==> r == "<" + operand + ">?"
  {
    (if !operandIsLiteral && !operandPrinted then "<" + operand + ">" else operand) + "?"
  }

  // ---------------------------------------------------------------- the printer

  /**
   * Which bracket rule the optional form follows: the source's, which consults the printed set
   * after printing the operand, or the intended one of `OptionalText`.
   */
  datatype OptionalRule = AsWritten | Intended

  datatype Printed = Printed(text: string, visited: set<NodeId>)
  datatype PrintedList = PrintedList(texts: seq<string>, visited: set<NodeId>)

  /** The ids of the grammar's nodes. */
  function Ids(g: Grammar): set<NodeId> {
    Below(|g.nodes|)
  }

  function Below(n: nat): (r: set<NodeId>)
    ensures forall i: NodeId :: i in r <==> i < n
  {
    if n == 0 then {} else Below(n - 1) + {n - 1}
  }

  lemma SubsetCard<T>(a: set<T>, b: set<T>)
    requires a <= b
    ensures |a| <= |b|
  {
    var d := b - a;
    assert b == a + d;
    assert a !! d;
  }

  lemma RemovalShrinks(all: set<NodeId>, visited: set<NodeId>, id: NodeId)
    requires id in all && id !in visited
    ensures |all - (visited + {id})| < |all - visited|
  {
    var rest := all - (visited + {id});
    assert all - visited == rest + {id};
    assert rest !! {id};
  }

  lemma GrowthShrinks(all: set<NodeId>, visited: set<NodeId>, more: set<NodeId>)
    requires visited <= more
    ensures |all - more| <= |all - visited|
  {
    SubsetCard(all - more, all - visited);
  }

  predicate ItemsBelow(g: Grammar, items: seq<NodeId>) {
    forall k :: 0 <= k < |items| ==> items[k] < |g.nodes|
  }

  lemma ChildrenBelow(g: Grammar, id: NodeId)
    requires WellFormed(g) && id < |g.nodes|
    ensures ItemsBelow(g, Unwrap(g.nodes[id]))
  {
    var children := Unwrap(g.nodes[id]);
    forall k | 0 <= k < |children|
      ensures children[k] < |g.nodes|
    {
      assert children[k] in children;
    }
  }

  /**
   * `node.toString(context, indent)` with `visited` the nodes printed so far in this call, the
   * optional form following `rule` (the source's own output is `AsWritten`).
   * The result's set holds every node printed, this one included.
   */
  function Print(g: Grammar, id: NodeId, visited: set<NodeId>, indent: nat, rule: OptionalRule): (r: Printed)
    requires WellFormed(g) && id < |g.nodes|
    ensures visited <= r.visited && id in r.visited
    ensures id in visited ==> r == Printed(Placeholder, visited)
    decreases |Ids(g) - visited|, 0, 0
  {
    if id in visited then Printed(Placeholder, visited)
    else
      var seen := visited + {id};
      RemovalShrinks(Ids(g), visited, id);
      ChildrenBelow(g, id);
      match g.nodes[id]
      case Literal(t) => Printed(LiteralText(t), seen)
      case Success => Printed("<SUCCESS>", seen)
      case Failure => Printed("<FAILURE>", seen)
      case Pattern(rx, _) => Printed("/" + g.env.regexSource(rx) + "/", seen)
      case Sequence(items) =>
        var l := PrintItems(g, items, 0, seen, indent + 1, rule);
        Printed("SEQ<\n" + JoinStrings(Prefixed(Indent(indent + 1), l.texts), "\n") + "\n" + Indent(indent) + ">", l.visited)
      case Alternative(items) =>
        if |items| == 2 && g.nodes[items[1]].Success? then
          var x := Print(g, items[0], seen, indent, rule);
          var literal := g.nodes[items[0]].IsStringParser();
          var text := match rule
            case AsWritten => OptionalTextAsWritten(x.text, literal, items[0] in x.visited)
            case Intended => OptionalText(x.text, literal);
          Printed(text, x.visited)
        else
          var l := PrintItems(g, items, 0, seen, indent + 1, rule);
          var deeper := Indent(indent + 1);
          Printed("ALT<\n" + deeper + JoinStrings(l.texts, "\n" + deeper + "| ") + "\n" + Indent(indent) + ">", l.visited)
      case Times(c, min, max) =>
        assert Unwrap(g.nodes[id])[0] == c;
        var x := Print(g, c, seen, indent, rule);
        Printed(x.text + TimesSuffix(min, max), x.visited)
      case Mapping(c, m) =>
        assert Unwrap(g.nodes[id])[0] == c;
        var x := Print(g, c, seen, indent, rule);
        Printed(x.text + " -> map<" + MapperText(MapperSource(g.env, m)) + ">", x.visited)
      case Chained(c, _) =>
        assert Unwrap(g.nodes[id])[0] == c;
        var x := Print(g, c, seen, indent, rule);
        Printed(x.text + " => chained<f()>", x.visited)
      case Lookaround(c, k) =>
        assert Unwrap(g.nodes[id])[0] == c;
        var x := Print(g, c, seen, indent, rule);
        Printed("(" + Marker(k) + x.text + ")", x.visited)
      case Lazy(t) =>
        assert Unwrap(g.nodes[id])[0] == t;
        Print(g, t, seen, indent, rule)
  }

  /** `items.slice(i).map(p => p.toString(context, indent))`, left to right. */
  function PrintItems(g: Grammar, items: seq<NodeId>, i: nat, visited: set<NodeId>, indent: nat, rule: OptionalRule): (r: PrintedList)
    requires WellFormed(g) && ItemsBelow(g, items) && i <= |items|
    ensures visited <= r.visited
    ensures |r.texts| == |items| - i
    ensures forall k :: i <= k < |items| ==> items[k] in r.visited
    decreases |Ids(g) - visited|, 1, |items| - i
  {
    if i == |items| then PrintedList([], visited)
    else
      var x := Print(g, items[i], visited, indent, rule);
      GrowthShrinks(Ids(g), visited, x.visited);
      var rest := PrintItems(g, items, i + 1, x.visited, indent, rule);
      PrintedList([x.text] + rest.texts, rest.visited)
  }

  function Prefixed(prefix: string, texts: seq<string>): (r: seq<string>)
    ensures |r| == |texts| && forall k :: 0 <= k < |texts| ==> r[k] == prefix + texts[k]
  {
    if |texts| == 0 then [] else [prefix + texts[0]] + Prefixed(prefix, texts[1..])
  }

  /** `Regexer.toString(indent, newline)`: a fresh printed set, optionally on a new indented line,
      with the optional form as the source writes it. */
  function GrammarText(g: Grammar, root: NodeId, indent: nat, newline: bool): (r: string)
    requires WellFormed(g) && root < |g.nodes|
  {
    (if newline then "\n" + Indent(indent) else "") + Print(g, root, {}, indent, AsWritten).text
  }
}

=== FILE: replies.dfy ===
/**
 * Outcomes of a parse attempt (`Reply` in the source) and the ways an attempt can end without
 * one: an exception the source throws, or the model's fuel running out.
 */
module Replies {
  import opened Values

  /** The `{status, value, position}` triple every node's `parse` returns. */
  datatype Reply = Reply(status: bool, value: Value, position: nat)

  function MakeSuccess(position: nat, value: Value): (r: Reply)
    ensures r.status && r.position == position && r.value == value
  {
    Reply(true, value, position)
  }

  /** A failure carries no value: the source stores `null`. */
  function MakeFailure(position: nat): (r: Reply)
    ensures !r.status && r.position == position && r.value == Null
  {
    Reply(false, Null, position)
  }

  /**
   * How a call ends: with a value, with an exception the source throws (`Raised`), or with
   * the model's fuel exhausted (the source would keep recursing or looping).
   */
  datatype Attempt<+T> = Done(result: T) | Raised(message: string) | OutOfFuel

  const LookbehindMessage: string := "Lookbehind is not implemented yet"
  const ParsingErrorMessage: string := "Parsing error"
  const MinGreaterThanMaxMessage: string := "Min is greater than max"
  /** Calling `parse` on a parser reference that does not exist. */
  const UndefinedParserMessage: string := "TypeError: parser is undefined"
  /** A built-in mapper destructuring a value that is not iterable. */
  const NotIterableMessage: string := "TypeError: value is not iterable"

  /** The exceptions the engine's own `parse` methods can throw. */
  predicate EngineError(message: string) {
    message == LookbehindMessage || message == UndefinedParserMessage || message == NotIterableMessage
  }
}

=== FILE: text.dfy ===
/**
 * String helpers shared by the printer and the value model: decimal numerals as JavaScript
 * renders them, `String.prototype.repeat`, single-character `replaceAll`, `Array.prototype.join`
 * over strings, and the character class that `String.prototype.trim` removes.
 */
module Text {

  predicate IsDigit(c: char) {
    '0' <= c <= '9'
  }

  function DigitChar(d: nat): (c: char)
    requires d < 10
    ensures IsDigit(c)
  {
    "0123456789"[d]
  }

  function DigitValue(c: char): nat
    requires IsDigit(c)
  {
    (c as int - '0' as int) as nat
  }

  /** Decimal numeral of a natural number, as `String(n)` renders it. */
  function NatToString(n: nat): (s: string)
    ensures |s| >= 1
    ensures forall i :: 0 <= i < |s| ==> IsDigit(s[i])
  {
    if n < 10 then [DigitChar(n)] else NatToString(n / 10) + [DigitChar(n % 10)]
  }

  /** Decimal numeral of an integer, with a leading `-` for negative numbers. */
  function IntToString(n: int): string {
    if n < 0 then "-" + NatToString(-n) else NatToString(n)
  }

  /** Reads back a string of digits. */
  function ParseNat(s: string): nat
    requires forall i :: 0 <= i < |s| ==> IsDigit(s[i])
  {
    if |s| == 0 then 0 else ParseNat(s[..|s| - 1]) * 10 + DigitValue(s[|s| - 1])
  }

  /** The numeral reads back as the number it was printed from. */
  lemma {:induction false} NatRoundTrip(n: nat)
    ensures ParseNat(NatToString(n)) == n
  {
    if n >= 10 {
      var s := NatToString(n);
      assert s[..|s| - 1] == NatToString(n / 10);
      NatRoundTrip(n / 10);
      assert DigitValue(DigitChar(n % 10)) == n % 10;
    } else {
      assert DigitValue(DigitChar(n)) == n;
    }
  }

  /** `s.repeat(k)`. */
  function Repeat(s: string, k: nat): (r: string)
    ensures |r| == |s| * k
  {
    if k == 0 then "" else Repeat(s, k - 1) + s
  }

  /** `s.replaceAll(c, rep)` for a one-character pattern `c`. */
  function ReplaceChar(s: string, c: char, rep: string): (r: string)
    ensures c !in rep ==> c !in r
    ensures forall d :: d in r ==> d in s || d in rep
  {
    if |s| == 0 then "" else (if s[0] == c then rep else [s[0]]) + ReplaceChar(s[1..], c, rep)
  }

  /** `parts.join(sep)`. */
  function JoinStrings(parts: seq<string>, sep: string): string {
    if |parts| == 0 then ""
    else if |parts| == 1 then parts[0]
    else JoinStrings(parts[..|parts| - 1], sep) + sep + parts[|parts| - 1]
  }

  /** Concatenation of a list of strings, `parts.join("")`. */
  function Concat(parts: seq<string>): string {
    if |parts| == 0 then "" else Concat(parts[..|parts| - 1]) + parts[|parts| - 1]
  }

  /** Joining with the empty separator is plain concatenation. */
  lemma {:induction false} JoinEmptyIsConcat(parts: seq<string>)
    ensures JoinStrings(parts, "") == Concat(parts)
  {
    if |parts| > 1 {
      JoinEmptyIsConcat(parts[..|parts| - 1]);
    } else if |parts| == 1 {
      assert Concat(parts) == Concat(parts[..0]) + parts[0];
    }
  }

  /**
   * The characters `String.prototype.trim` strips: ECMAScript WhiteSpace (tab, vertical tab,
   * form feed, space, no-break space, byte-order mark and the Zs category) and LineTerminator.
   */
  predicate IsJsWhitespace(c: char) {
    || c == '\t' || c == '\n' || c == '\U{000B}' || c == '\U{000C}' || c == '\r' || c == ' '
    || c == '\U{00A0}' || c == '\U{1680}' || ('\U{2000}' <= c <= '\U{200A}')
    || c == '\U{2028}' || c == '\U{2029}' || c == '\U{202F}' || c == '\U{205F}' || c == '\U{3000}'
    || c == '\U{FEFF}'
  }

  /** Length of the longest prefix of `s` made of whitespace: what the pattern `\s*` matches at the start. */
  function WhitespaceRun(s: string): (k: nat)
    ensures k <= |s|
    ensures forall i :: 0 <= i < k ==> IsJsWhitespace(s[i])
    ensures k < |s| ==> !IsJsWhitespace(s[k])
  {
    if |s| == 0 || !IsJsWhitespace(s[0]) then 0 else 1 + WhitespaceRun(s[1..])
  }

  /** Position of the first `c` in `s`, or `|s|` when there is none. */
  function IndexOf(s: string, c: char): (k: nat)
    ensures k <= |s|
    ensures k < |s| ==> s[k] == c
    ensures forall i :: 0 <= i < k ==> s[i] != c
  {
    if |s| == 0 then 0 else if s[0] == c then 0 else 1 + IndexOf(s[1..], c)
  }
}

=== FILE: values.dfy ===
/**
 * The values that flow through outcomes. The source is dynamically typed; the model keeps the
 * kinds its own code produces and inspects: strings (literal and pattern matches), arrays
 * (sequence and repetition results, regular-expression match arrays), numbers (produced by
 * user mappers), `null` (the value of every failure) and `undefined` (a missing capture group).
 */
module Values {
  import opened Text

  datatype Value = Str(text: string) | Num(n: int) | Arr(items: seq<Value>) | Null | Undefined

  /** The text an array element contributes to `Array.prototype.join`: `null` and `undefined`
      contribute nothing, a nested array contributes its own elements joined with commas. */
  function ElementText(v: Value): string
    decreases v
  {
    match v
    case Str(s) => s
    case Num(n) => IntToString(n)
    case Null => ""
    case Undefined => ""
    case Arr(xs) => JoinStrings(seq(|xs|, i requires 0 <= i < |xs| => ElementText(xs[i])), ",")
  }

  /** `xs.join(sep)` on an array value. */
  function JoinItems(xs: seq<Value>, sep: string): string {
    JoinStrings(seq(|xs|, i requires 0 <= i < |xs| => ElementText(xs[i])), sep)
  }

  predicate AllStrings(xs: seq<Value>) {
    forall i :: 0 <= i < |xs| ==> xs[i].Str?
  }

  function Texts(xs: seq<Value>): (r: seq<string>)
    requires AllStrings(xs)
    ensures |r| == |xs|
  {
    seq(|xs|, i requires 0 <= i < |xs| => xs[i].text)
  }

  /** Joining an array of strings with `""` concatenates their texts. */
  lemma JoinStringsIsConcat(xs: seq<Value>)
    requires AllStrings(xs)
    ensures JoinItems(xs, "") == Concat(Texts(xs))
  {
    assert seq(|xs|, i requires 0 <= i < |xs| => ElementText(xs[i])) == Texts(xs);
    JoinEmptyIsConcat(Texts(xs));
  }
}

=== FILE: wrappers.dfy ===
/** Optional values and results, in the shape the rest of the model uses. */
module Wrappers {

  /** A value that may be absent (JavaScript `null` / `undefined` where the source allows them). */
  datatype Option<+T> = None | Some(value: T)

  /** Either a value or the message of an exception the source would throw. */
  datatype Result<+T> = Ok(value: T) | Err(message: string)
}
